=== FILE: README.md ===
# Crime data analysis (Ontario): a Dafny model of the table plumbing

This project models the exact, integer-valued part of the crime-data
analysis pipeline: the cleaning steps that turn the raw Statistics Canada
table into a four-column table, the group-by sums behind the yearly time
series and the city-by-violation pivot, the cluster profiles built from
cluster labels, and the bookkeeping around the statistical tests. The
statistics themselves (k-means, t-test, Levene, ANOVA, exponential
smoothing) come from libraries and are not modelled. The test routines are
uninterpreted function parameters. The cluster labels are an input.

Modules, one per file:

- `Results` (results.dfy): `Option` and `Result`.
- `Seqs` (seqs.dfy): filter, map and sums over sequences. It states order-preserving selection (`IsSelection`) and group sums (`SumBy`). It proves the partition law: summing the group sums over every key gives the total.
- `Order` (order.dfy): strict total orders, Python's string order (`LexLess`), and the sorted list of distinct keys (`SortedKeys`). That list is the index of a pandas `groupby` result.
- `Grouping` (grouping.dfy): `GroupSum`, a one-pass `groupby(key)[col].sum()`. It is proved equal, key by key, to `SumBy`.
- `Cleaning` (cleaning.dfy): `src/data_cleaning.py` over a positional table (column labels plus rows of cells). A missing column gives `Err(KeyError(...))`, as pandas raises `KeyError`.
- `Records` (records.dfy): a row of the cleaned table (Year, City, Violations, Value). `Value` is a count, possibly missing.
- `Numbers` (numbers.dfy): exact real mean.
- `Forecasting` (forecasting.dfy): `prepare_time_series` and `simulate_growth_forecast`.
- `Clustering` (clustering.dfy): `prepare_clustering_data` and `get_cluster_profiles`.
- `Stats` (stats.dfy): `perform_ttest`, `perform_anova` and `levene_test`.

Points where the model follows the code's exact behaviour:

- The code defines no custom error kinds. A missing column is pandas' `KeyError`, and an empty series is an `IndexError`, so these become `Err` values or preconditions.
- The significance level is the literal 0.05 in every test.
- Cluster labels are attached to pivot rows, one row per city, so each city carries exactly one label.
- A cluster label is any integer. A negative label indexes the risk-level list from its end, as Python does.

## Model

| member | source | states |
|---|---|---|
| Cleaning.FilterActualIncidents | src/data_cleaning.py:44 | Fails with KeyError ['Statistics'] exactly when that column is absent. Otherwise the columns are unchanged and the rows are the order-preserving selection of the rows whose Statistics cell is "Actual incidents", cells untouched |
| Cleaning.FilterActualIncidentsIdempotent | src/data_cleaning.py:44 | Filtering the filter's own output returns the same table |
| Cleaning.FillMissingWithZero | src/data_cleaning.py:63-64 | Fails only when VALUE is absent. Otherwise it keeps columns, row count and order. No VALUE cell is missing afterwards: a missing one becomes 0 and a present one is unchanged. Every other column's cells are unchanged |
| Cleaning.DropMissing | src/data_cleaning.py:67-68 | Fails only when VALUE is absent. Otherwise the rows are the order-preserving selection of those with a present VALUE |
| Cleaning.HandleMissingValues | src/data_cleaning.py:63-69 | Fails exactly for 'zero' or 'drop' on a table without VALUE. Any strategy other than 'zero', 'drop' and 'mean' returns the table unchanged |
| Cleaning.ZeroFillLeavesNothingToDrop | src/data_cleaning.py:63-68 | After the 'zero' strategy, the 'drop' strategy removes nothing |
| Cleaning.RenameColumns | src/data_cleaning.py:86-91 | REF_DATE, GEO and VALUE become Year, City and Value. Every other label, and every cell, is unchanged |
| Cleaning.RenameColumnsIdempotent | src/data_cleaning.py:86-91 | Renaming a renamed table changes nothing, since no new label is itself renamed |
| Cleaning.SelectFeatures | src/data_cleaning.py:108-109 | Fails exactly when one of Year, City, Violations, Value is absent, and the error lists exactly the absent ones. Otherwise every output column is an input column with a feature label, every feature label is among the output columns, and the rows are the same |
| Cleaning.PositionsCover | src/data_cleaning.py:108-109 | Selecting columns by a list of labels keeps every requested label the table has |
| Cleaning.SelectFeaturesExact | src/data_cleaning.py:108-109 | With each feature label unique, the result has exactly the columns [Year, City, Violations, Value] in that order. Each output row is the four matching cells of its input row |
| Cleaning.CleanData | src/data_cleaning.py:128-143 | Fails exactly when Statistics is absent, when 'zero' or 'drop' meets a table without VALUE, or when a feature is absent after renaming. An error names at least one column, and every name it gives is absent from the renamed table. A success has exactly the feature labels among its columns (all four, nothing else) and one cell per column in every row |
| Cleaning.CleanDataWithZeroFill | src/data_cleaning.py:128-143 | On a raw table with unique labels that has Statistics, REF_DATE, GEO, Violations and VALUE and none of Year, City, Value, and with the 'zero' strategy, the result succeeds with columns [Year, City, Violations, Value]. It has one row per "Actual incidents" row, in order, carrying REF_DATE, GEO, Violations, and VALUE or 0 where VALUE was missing |
| Grouping.GroupSum | src/forecasting.py:28 | One entry per distinct key present, keys strictly ascending, every element's key listed, and each entry's total equal to the reference group sum (filter, then add) |
| Grouping.GroupSumPreservesTotal | src/forecasting.py:28 | The entries' totals add up to the sum over the whole sequence |
| Grouping.GroupSumKeys | src/forecasting.py:28 | The keys are exactly the sorted list of distinct keys present |
| Forecasting.PrepareTimeSeries | src/forecasting.py:28 | One entry per distinct Year present, in ascending order. Each holds the sum of Value over that year's rows, with a missing Value adding nothing |
| Forecasting.TimeSeriesPreservesTotal | src/forecasting.py:28 | The yearly totals add up to the total of Value over the table |
| Forecasting.TimeSeriesYears | src/forecasting.py:28 | The series' years are the sorted distinct years of the table |
| Forecasting.SimulateGrowthForecast | src/forecasting.py:193-204 | Needs a non-empty series. Returns max(years, 0) points. Point i, counting from 1, is for the last year plus i and has the last total times (1 + g)^i |
| Forecasting.ForecastRecurrence | src/forecasting.py:199-202 | Consecutive points are one year apart, and each value is the previous one times (1 + g). The first point is the last total times (1 + g) |
| Forecasting.ZeroGrowthIsFlat | src/forecasting.py:200 | With growth 0, every forecast value equals the last observed total |
| Forecasting.ForecastFollowsHistory | src/forecasting.py:194-202 | On the series prepared from a non-empty table, every forecast year is after every observed year, and the forecast years strictly increase |
| Forecasting.ForecastAfterSeries | src/forecasting.py:194-202 | On any series with strictly ascending years, every forecast year is after every year of the series, and the forecast years strictly increase |
| Clustering.PrepareClusteringData | src/clustering.py:31 | Rows are the distinct cities, sorted, and columns the distinct violations, sorted. Cell (c, v) is the sum of Value over the rows with City c and Violations v |
| Clustering.PivotCellWithoutRows | src/clustering.py:31 | A (city, violation) pair with no row reads the fill value 0 |
| Clustering.PivotPreservesTotal | src/clustering.py:31 | The grand total of the pivot equals the total of Value over the table |
| Clustering.RowTotalIsCityTotal | src/clustering.py:31 | A pivot row adds up to its city's total of Value when the columns cover every violation |
| Clustering.RowTotalWithoutAbsent | src/clustering.py:160 | Dropping a column named Cluster that the pivot does not have leaves every row total equal to the sum of the row |
| Clustering.UniqueLabels | src/clustering.py:157 | The distinct labels, strictly ascending: every label is listed and every listed value is a label |
| Clustering.NatToStringInjective | src/clustering.py:162 | Distinct natural numbers print as distinct decimal strings |
| Clustering.ClusterNameInjective | src/clustering.py:162 | Two labels give the same key "Cluster_<label>" exactly when they are equal |
| Clustering.RiskLevelOf | src/clustering.py:165 | Low for 0 and -3, Moderate for 1 and -2, High for 2 and -1, Unknown exactly for labels of 3 or more. Labels below -3 are excluded, since Python raises IndexError there |
| Clustering.ProfileOf | src/clustering.py:157-165 | For a label with rows: key "Cluster_<label>", its risk level, a non-empty city list, and a mean equal to the group's total of row totals divided by its city count |
| Clustering.ProfileCities | src/clustering.py:158-159 | A profile's cities are the City values of the order-preserving selection of the rows with that label |
| Clustering.ProfileWeight | src/clustering.py:160 | A profile's mean times its city count is the total of its rows |
| Clustering.LabelsHaveRows | src/clustering.py:157-158 | Every distinct label selects at least one row, so no mean divides by zero |
| Clustering.ClusterProfiles | src/clustering.py:153-167 | Needs one label per pivot row. Gives one profile per distinct label, in ascending label order. Each has that label's key and risk level, lists in row order exactly the cities labelled with it (at least one), and holds the mean of their row totals |
| Clustering.GetClusterProfiles | src/clustering.py:153-167 | The same as ClusterProfiles on the pivot of the cleaned table: key, risk level, the labelled cities in pivot order (at least one) and the mean of their row totals, per distinct label |
| Clustering.ProfileNamesDistinct | src/clustering.py:162 | No two profiles share a key, so none overwrites another in the dictionary |
| Clustering.ProfilesPartitionCities | src/clustering.py:157-159 | With distinct city names, city i is in the profile of the j-th distinct label exactly when its label is that one |
| Clustering.ClusterProfilesCoverRows | src/clustering.py:157-160 | The profiles' means weighted by their city counts add up to the total of all pivot row totals |
| Clustering.GetClusterProfilesCoverTable | src/clustering.py:153-160 | When no violation is itself named Cluster, the weighted means add up to the total of Value over the table |
| Stats.DecisionsAtTheLevel | src/statistical_tests.py:47-48 | A p-value is never both below and above 0.05. It is neither exactly when it is NaN or exactly 0.05 |
| Stats.CitySampleSelects | src/statistical_tests.py:32-33 | A city's sample is the Value column of the order-preserving selection of that city's rows |
| Stats.UnknownCityEmptySample | src/statistical_tests.py:32-33 | A city without rows has an empty sample |
| Stats.SampleSizesCoverTable | src/statistical_tests.py:32-33 | The samples of the distinct cities have sizes adding up to the number of rows |
| Stats.PresentSum | src/statistical_tests.py:39-40 | Skipping missing values and counting them as 0 give the same sum |
| Stats.SampleMean | src/statistical_tests.py:39-40 | NaN exactly when no value is present. Otherwise the mean times the number of present values is their sum |
| Stats.PerformTTest | src/statistical_tests.py:32-63 | Echoes the city names. n1 and n2 are the numbers of rows of each city. Degrees of freedom are n1 + n2 - 2. The statistic and p-value are the library's on the two samples. Alpha is 0.05, and the result is significant exactly when p is a number below 0.05 |
| Stats.TTestSwap | src/statistical_tests.py:32-63 | Swapping the cities swaps names, means, standard deviations and sample sizes, and keeps the degrees of freedom |
| Stats.TTestSizes | src/statistical_tests.py:57-58 | A reported sample size is 0 exactly when the city has no row. With both cities present, the degrees of freedom are at least 0 |
| Stats.PerformAnova | src/statistical_tests.py:128-138 | Echoes the city list. The statistic and p-value are the library's on the cities' samples, in the list's order. Significant exactly when p is a number below 0.05 |
| Stats.LeveneTest | src/statistical_tests.py:162-170 | The statistic and p-value are the library's on the two samples. Equal variances exactly when p is a number above 0.05 |

## Left out

- `load_data` and every file read or write: I/O. `CleanData` starts from the table already read.
- The 'mean' missing-value strategy: a floating-point mean, which is NaN when every value is missing. `HandleMissingValues` and `CleanData` require another strategy.
- `filter_actual_incidents` and `handle_missing_values` on a table where the key column label occurs twice. pandas then switches to DataFrame-mask semantics. Labels read from a CSV file are unique, so the model requires this.
- Conversion of the cleaned table to typed `Record` rows. The analysis modules take a sequence of `Record` (Year an integer, City and Violations strings, Value an optional count).
- A missing (NaN) Year, City or Violations, which pandas drops from group keys. Group keys are always present in `Record`.
- Floating point: means, growth and p-values are exact reals. The threshold 0.05 is the exact real, not the nearest double.
- `StandardScaler`, `KMeans`, `PCA`, `find_optimal_clusters`, `plot_clusters`: library numerics with randomised initialisation. The labels are a parameter of `GetClusterProfiles`.
- `ttest_ind`, `levene`, `f_oneway` and `Series.std`: library calls. They are the fields of a `TestLibrary` parameter, applied to exactly the samples the code passes.
- `fit_exponential_smoothing`, `get_model_summary`, `plot_forecast` and `calculate_growth_rate`: statsmodels and float division.
- `print_ttest_results`, src/visualization.py, notebook_template.py and src/__init__.py: printing, plotting and imports only.
- Clustering.GetClusterProfiles: a label list of the wrong length raises `ValueError` in pandas; here it is a precondition. A label below -3 raises `IndexError`, and that is a precondition too.
- Forecasting.SimulateGrowthForecast: an empty series raises `IndexError` in pandas; here it is a precondition.
- Cleaning.FillMissingWithZero: pure. `handle_missing_values` assigns the filled VALUE column into the caller's DataFrame; `clean_data` passes a copy, so the pipeline result is the same.
- Integer width: sums of Value are unbounded integers. pandas sums an int64 column with wrap-around, and a float64 column (once a NaN is present) with rounding above 2^53.
- Stats.PerformAnova: the library fields are total functions, so a record is returned for an empty or one-city list, where scipy's `f_oneway` raises an error.
- The profile dictionary is a sequence in insertion order, which is ascending label order. `ProfileNamesDistinct` shows its keys are distinct.

=== FILE: cleaning.dfy ===
/** The cleaning pipeline of src/data_cleaning.py over an in-memory table.

    A pandas DataFrame is modelled positionally: a list of column labels and
    a list of rows, each row holding one cell per column. Keeping rows
    positional (rather than keyed by label) lets a rename produce two columns
    with the same label, exactly as pandas does. A missing cell (NaN) is
    `Missing`; the cells this pipeline inspects are strings and counts. A
    lookup of an absent column raises `KeyError` in pandas; here it is an
    `Err`. */
module Cleaning {
  import opened Results
  import opened Seqs

  datatype Cell = Text(text: string) | Count(count: int) | Missing

  type Row = seq<Cell>

  datatype Table = Table(columns: seq<string>, rows: seq<Row>)

  /** pandas' `KeyError`, carrying the labels it could not find. */
  datatype Error = KeyError(missing: seq<string>)

  const StatisticsColumn: string := "Statistics"
  const ActualIncidents: string := "Actual incidents"
  const RawValueColumn: string := "VALUE"

  /** The renaming dictionary of `rename_columns`. */
  const ColumnMapping: map<string, string> :=
    map["REF_DATE" := "Year", "GEO" := "City", "VALUE" := "Value"]

  /** The columns `select_features` keeps, in this order. */
  const Features: seq<string> := ["Year", "City", "Violations", "Value"]

  /** Every row has one cell per column, as in any DataFrame. */
  ghost predicate Rectangular(t: Table) {
    forall row :: row in t.rows ==> |row| == |t.columns|
  }

  /** No label occurs twice at `name`; a DataFrame read from a CSV file has
      unique labels. */
  ghost predicate AtMostOnce(names: seq<string>, name: string) {
    forall i, j :: 0 <= i < j < |names| && names[i] == name ==> names[j] != name
  }

  /** The first position of `name` among the labels. */
  function IndexOf(names: seq<string>, name: string): (r: Option<nat>)
    ensures r.None? <==> name !in names
    ensures r.Some? ==> r.value < |names| && names[r.value] == name
  {
    if |names| == 0 then None
    else if names[0] == name then Some(0)
    else match IndexOf(names[1..], name)
      case None => None
      case Some(i) => Some(i + 1)
  }

  /** Every position from `from` on whose label is `name`, ascending. */
  function IndicesFrom(names: seq<string>, name: string, from: nat): (r: seq<nat>)
    requires from <= |names|
    ensures forall k :: 0 <= k < |r| ==> from <= r[k] < |names| && names[r[k]] == name
    ensures forall i :: from <= i < |names| && names[i] == name ==> i in r
    ensures StrictlyIncreasing(r)
    decreases |names| - from
  {
    if from == |names| then []
    else if names[from] == name then [from] + IndicesFrom(names, name, from + 1)
    else IndicesFrom(names, name, from + 1)
  }

  /** Every position whose label is `name`, in ascending order. */
  function IndicesOf(names: seq<string>, name: string): seq<nat> {
    IndicesFrom(names, name, 0)
  }

  /** A label that occurs at most once, and at `c`, is found there alone. */
  lemma IndicesOfUnique(names: seq<string>, name: string, c: nat)
    requires AtMostOnce(names, name) && c < |names| && names[c] == name
    ensures IndicesOf(names, name) == [c]
  {
    var r := IndicesOf(names, name);
    assert c in r;
    forall k | 0 <= k < |r|
      ensures r[k] == c && k < 1
    {
      assert names[r[k]] == name && names[r[0]] == name;
    }
    assert r[|r| - 1] == c;
  }

  /** A label that occurs at most once, and at `c`, occurs nowhere else. */
  lemma OnlyPosition(names: seq<string>, name: string, c: nat)
    requires AtMostOnce(names, name) && c < |names| && names[c] == name
    ensures forall i :: 0 <= i < |names| && names[i] == name ==> i == c
  {
  }

  /** The same, for the first position. */
  lemma IndexOfUnique(names: seq<string>, name: string, c: nat)
    requires AtMostOnce(names, name) && c < |names| && names[c] == name
    ensures IndexOf(names, name) == Some(c)
  {
    var i := IndexOf(names, name).value;
    assert names[i] == name;
  }

  /** The elements of `s` at the positions `idx`, in the order of `idx`. */
  function Pick<T>(s: seq<T>, idx: seq<nat>): (r: seq<T>)
    requires forall k :: 0 <= k < |idx| ==> idx[k] < |s|
    ensures |r| == |idx| && forall k :: 0 <= k < |idx| ==> r[k] == s[idx[k]]
  {
    if |idx| == 0 then [] else [s[idx[0]]] + Pick(s, idx[1..])
  }

  // ---------------------------------------------------------------------
  // filter_actual_incidents
  // ---------------------------------------------------------------------

  /** Whether one row's Statistics cell reads "Actual incidents", when the
      statistics column is at position `col`. A missing cell or a count never
      equals the string. */
  function IsActualIncident(col: nat): Row -> bool {
    (row: Row) => col < |row| && row[col] == Text(ActualIncidents)
  }

  /** `filter_actual_incidents`: the rows whose `Statistics` cell is
      "Actual incidents", in their original order, cells untouched. */
  function FilterActualIncidents(t: Table): (r: Result<Table, Error>)
    requires Rectangular(t) && AtMostOnce(t.columns, StatisticsColumn)
    ensures r.Err? <==> StatisticsColumn !in t.columns
    ensures r.Err? ==> r.error == KeyError([StatisticsColumn])
    ensures r.Ok? ==> r.value.columns == t.columns && Rectangular(r.value)
    ensures r.Ok? ==> forall c :: 0 <= c < |t.columns| && t.columns[c] == StatisticsColumn ==>
      IsSelection(t.rows, IsActualIncident(c), r.value.rows)
  {
    match IndexOf(t.columns, StatisticsColumn)
    case None => Err(KeyError([StatisticsColumn]))
    case Some(c) =>
      var kept := Filter(t.rows, IsActualIncident(c));
      FilterSelects(t.rows, IsActualIncident(c));
      OnlyPosition(t.columns, StatisticsColumn, c);
      Ok(Table(t.columns, kept))
  }

  /** The filter is idempotent: filtering its own output changes nothing. */
  lemma FilterActualIncidentsIdempotent(t: Table)
    requires Rectangular(t) && AtMostOnce(t.columns, StatisticsColumn)
    requires StatisticsColumn in t.columns
    ensures FilterActualIncidents(FilterActualIncidents(t).value) == FilterActualIncidents(t)
  {
    var c := IndexOf(t.columns, StatisticsColumn).value;
    FilterIdempotent(t.rows, IsActualIncident(c));
  }

  // ---------------------------------------------------------------------
  // handle_missing_values
  // ---------------------------------------------------------------------

  /** `fillna(0)` on one cell. */
  function FillZero(cell: Cell): Cell {
    if cell.Missing? then Count(0) else cell
  }

  function FillRow(col: nat): Row -> Row {
    (row: Row) => if col < |row| then row[col := FillZero(row[col])] else row
  }

  /** Whether one row has a present VALUE cell: the rows that dropping
      missing values keeps. */
  function HasValue(col: nat): Row -> bool {
    (row: Row) => col < |row| && !row[col].Missing?
  }

  /** The rows after `fillna(0)` on the column at `col`: same rows, same
      order; that column has no missing cell left and keeps every present one;
      all other columns keep their cells. */
  lemma ZeroFilledRows(t: Table, col: nat)
    requires Rectangular(t) && col < |t.columns| && AtMostOnce(t.columns, t.columns[col])
    ensures var rows := MapSeq(t.rows, FillRow(col));
      && Rectangular(Table(t.columns, rows))
      && |rows| == |t.rows|
      && (forall k, c :: 0 <= k < |t.rows| && 0 <= c < |t.columns| && t.columns[c] == t.columns[col] ==>
            && !rows[k][c].Missing?
            && (t.rows[k][c].Missing? ==> rows[k][c] == Count(0))
            && (!t.rows[k][c].Missing? ==> rows[k][c] == t.rows[k][c]))
      && (forall k, c :: 0 <= k < |t.rows| && 0 <= c < |t.columns| && t.columns[c] != t.columns[col] ==>
            rows[k][c] == t.rows[k][c])
  {
    var rows := MapSeq(t.rows, FillRow(col));
    forall k | 0 <= k < |t.rows|
      ensures |t.rows[k]| == |t.columns| && rows[k] == t.rows[k][col := FillZero(t.rows[k][col])]
    {
      assert t.rows[k] in t.rows;
    }
    forall row | row in rows
      ensures |row| == |t.columns|
    {
      var k :| 0 <= k < |rows| && rows[k] == row;
    }
    forall c | 0 <= c < |t.columns| && t.columns[c] == t.columns[col]
      ensures c == col
    {
    }
  }

  /** `handle_missing_values(df, 'zero')`. */
  function FillMissingWithZero(t: Table): (r: Result<Table, Error>)
    requires Rectangular(t) && AtMostOnce(t.columns, RawValueColumn)
    ensures r.Err? <==> RawValueColumn !in t.columns
    ensures r.Err? ==> r.error == KeyError([RawValueColumn])
    ensures r.Ok? ==> r.value.columns == t.columns && Rectangular(r.value)
    ensures r.Ok? ==> |r.value.rows| == |t.rows|
    ensures r.Ok? ==>
      forall k, c :: 0 <= k < |t.rows| && 0 <= c < |t.columns| && t.columns[c] == RawValueColumn ==>
        && !r.value.rows[k][c].Missing?
        && (t.rows[k][c].Missing? ==> r.value.rows[k][c] == Count(0))
        && (!t.rows[k][c].Missing? ==> r.value.rows[k][c] == t.rows[k][c])
    ensures r.Ok? ==>
      forall k, c :: 0 <= k < |t.rows| && 0 <= c < |t.columns| && t.columns[c] != RawValueColumn ==>
        r.value.rows[k][c] == t.rows[k][c]
  {
    match IndexOf(t.columns, RawValueColumn)
    case None => Err(KeyError([RawValueColumn]))
    case Some(col) =>
      ZeroFilledRows(t, col);
      OnlyPosition(t.columns, RawValueColumn, col);
      Ok(Table(t.columns, MapSeq(t.rows, FillRow(col))))
  }

  /** `handle_missing_values(df, 'drop')`. */
  function DropMissing(t: Table): (r: Result<Table, Error>)
    requires Rectangular(t) && AtMostOnce(t.columns, RawValueColumn)
    ensures r.Err? <==> RawValueColumn !in t.columns
    ensures r.Err? ==> r.error == KeyError([RawValueColumn])
    ensures r.Ok? ==> r.value.columns == t.columns && Rectangular(r.value)
    ensures r.Ok? ==>
      forall c :: 0 <= c < |t.columns| && t.columns[c] == RawValueColumn ==>
        IsSelection(t.rows, HasValue(c), r.value.rows)
  {
    match IndexOf(t.columns, RawValueColumn)
    case None => Err(KeyError([RawValueColumn]))
    case Some(col) =>
      FilterSelects(t.rows, HasValue(col));
      OnlyPosition(t.columns, RawValueColumn, col);
      Ok(Table(t.columns, Filter(t.rows, HasValue(col))))
  }

  /** `handle_missing_values`: 'zero' and 'drop' as above; any strategy other
      than those and 'mean' touches nothing and cannot fail. The 'mean'
      strategy is outside this model. */
  function HandleMissingValues(t: Table, strategy: string): (r: Result<Table, Error>)
    requires Rectangular(t)
    requires strategy != "mean"
    requires strategy == "zero" || strategy == "drop" ==> AtMostOnce(t.columns, RawValueColumn)
    ensures r.Err? <==> (strategy == "zero" || strategy == "drop") && RawValueColumn !in t.columns
    ensures r.Err? ==> r.error == KeyError([RawValueColumn])
    ensures r.Ok? ==> r.value.columns == t.columns && Rectangular(r.value)
    ensures strategy != "zero" && strategy != "drop" ==> r == Ok(t)
  {
    if strategy == "zero" then FillMissingWithZero(t)
    else if strategy == "drop" then DropMissing(t)
    else Ok(t)
  }

  /** After 'zero', dropping rows with a missing `VALUE` drops nothing. */
  lemma ZeroFillLeavesNothingToDrop(t: Table)
    requires Rectangular(t) && AtMostOnce(t.columns, RawValueColumn)
    requires RawValueColumn in t.columns
    ensures DropMissing(FillMissingWithZero(t).value) == FillMissingWithZero(t)
  {
    var z := FillMissingWithZero(t).value;
    var col := IndexOf(t.columns, RawValueColumn).value;
    forall row | row in z.rows
      ensures HasValue(col)(row)
    {
      var k :| 0 <= k < |z.rows| && z.rows[k] == row;
    }
    FilterKeepsAll(z.rows, HasValue(col));
  }

  // ---------------------------------------------------------------------
  // rename_columns
  // ---------------------------------------------------------------------

  function RenameColumn(name: string): string {
    if name in ColumnMapping then ColumnMapping[name] else name
  }

  /** `rename_columns`: REF_DATE becomes Year, GEO becomes City and VALUE
      becomes Value; every other label and every cell stays as it is. */
  function RenameColumns(t: Table): (r: Table)
    ensures r.rows == t.rows && |r.columns| == |t.columns|
    ensures forall c :: 0 <= c < |t.columns| ==>
      && (t.columns[c] == "REF_DATE" ==> r.columns[c] == "Year")
      && (t.columns[c] == "GEO" ==> r.columns[c] == "City")
      && (t.columns[c] == "VALUE" ==> r.columns[c] == "Value")
      && (t.columns[c] != "REF_DATE" && t.columns[c] != "GEO" && t.columns[c] != "VALUE" ==>
            r.columns[c] == t.columns[c])
  {
    Table(MapSeq(t.columns, RenameColumn), t.rows)
  }

  /** Renaming twice is renaming once: no new label is itself renamed. */
  lemma RenameColumnsIdempotent(t: Table)
    ensures RenameColumns(RenameColumns(t)) == RenameColumns(t)
  {
  }

  // ---------------------------------------------------------------------
  // select_features
  // ---------------------------------------------------------------------

  /** The column positions a selection by labels reads: for each requested label in
      turn, every column carrying it. */
  function Positions(names: seq<string>, wanted: seq<string>): (r: seq<nat>)
    ensures forall k :: 0 <= k < |r| ==> r[k] < |names| && names[r[k]] in wanted
  {
    if |wanted| == 0 then []
    else IndicesOf(names, wanted[0]) + Positions(names, wanted[1..])
  }

  /** Each row cut down to the cells at positions `pos`. */
  function PickRows(rows: seq<Row>, pos: seq<nat>): (r: seq<Row>)
    requires forall row, m :: row in rows && 0 <= m < |pos| ==> pos[m] < |row|
    ensures |r| == |rows| && forall k :: 0 <= k < |rows| ==> r[k] == Pick(rows[k], pos)
  {
    if |rows| == 0 then [] else [Pick(rows[0], pos)] + PickRows(rows[1..], pos)
  }

  /** Every requested label that the table has is among the labels at the
      positions found for it. */
  lemma {:induction false} PositionsCover(names: seq<string>, wanted: seq<string>)
    ensures forall f :: f in wanted && f in names ==> f in Pick(names, Positions(names, wanted))
  {
    if |wanted| > 0 {
      PositionsCover(names, wanted[1..]);
      var p := Positions(names, wanted);
      var head := IndicesOf(names, wanted[0]);
      var q := Positions(names, wanted[1..]);
      forall f | f in wanted && f in names
        ensures f in Pick(names, p)
      {
        if f == wanted[0] {
          var i :| 0 <= i < |names| && names[i] == f;
          assert i in head;
          var k :| 0 <= k < |head| && head[k] == i;
          assert p[k] == i;
          assert Pick(names, p)[k] == f;
        } else {
          assert f in wanted[1..];
          var k :| 0 <= k < |Pick(names, q)| && Pick(names, q)[k] == f;
          assert p[|head| + k] == q[k];
          assert Pick(names, p)[|head| + k] == f;
        }
      }
    }
  }

  /** `r` is `t` cut down to the columns at positions `pos`, same rows. */
  ghost predicate ProjectedFrom(t: Table, r: Table, pos: seq<nat>) {
    && |pos| == |r.columns|
    && |r.rows| == |t.rows|
    && (forall m :: 0 <= m < |pos| ==> pos[m] < |t.columns| && t.columns[pos[m]] == r.columns[m])
    && (forall k, m :: 0 <= k < |r.rows| && 0 <= m < |pos| ==>
          |r.rows[k]| == |pos| && pos[m] < |t.rows[k]| && r.rows[k][m] == t.rows[k][pos[m]])
  }

  /** The table cut down to the columns at the given positions. */
  function Project(t: Table, pos: seq<nat>): (r: Table)
    requires Rectangular(t) && forall m :: 0 <= m < |pos| ==> pos[m] < |t.columns|
    ensures Rectangular(r) && ProjectedFrom(t, r, pos)
  {
    var r := Table(Pick(t.columns, pos), PickRows(t.rows, pos));
    assert forall k :: 0 <= k < |t.rows| ==> t.rows[k] in t.rows;
    r
  }

  function Absent(names: seq<string>): string -> bool {
    f => f !in names
  }

  lemma MissingFeatures(names: seq<string>)
    ensures forall f :: f in Filter(Features, Absent(names)) <==> f in Features && f !in names
  {
    forall f | f in Features && f !in names
      ensures f in Filter(Features, Absent(names))
    {
      FilterKeepsWitness(Features, Absent(names), f);
    }
  }

  /** `select_features`: the columns Year, City, Violations and Value, over
      the same rows; a `KeyError` naming every absent one otherwise. Each
      output column is a copy of an input column with a feature label, and
      each feature label is among the output columns. */
  function SelectFeatures(t: Table): (r: Result<Table, Error>)
    requires Rectangular(t)
    ensures r.Err? <==> exists f :: f in Features && f !in t.columns
    ensures r.Err? ==> forall f :: f in r.error.missing <==> f in Features && f !in t.columns
    ensures r.Ok? ==> Rectangular(r.value)
    ensures r.Ok? ==> forall m :: 0 <= m < |r.value.columns| ==> r.value.columns[m] in Features
    ensures r.Ok? ==> forall f :: f in Features ==> f in r.value.columns
    ensures r.Ok? ==> exists pos :: ProjectedFrom(t, r.value, pos)
  {
    var missing := Filter(Features, Absent(t.columns));
    MissingFeatures(t.columns);
    if |missing| > 0 then
      assert missing[0] in missing;
      Err(KeyError(missing))
    else
      var pos := Positions(t.columns, Features);
      PositionsCover(t.columns, Features);
      Ok(Project(t, pos))
  }

  /** Each of the four feature labels occurs at most once. */
  ghost predicate FeatureLabelsUnique(names: seq<string>) {
    && AtMostOnce(names, "Year")
    && AtMostOnce(names, "City")
    && AtMostOnce(names, "Violations")
    && AtMostOnce(names, "Value")
  }

  lemma PositionsOfFeatures(names: seq<string>, year: nat, city: nat, violations: nat, value: nat)
    requires IndicesOf(names, "Year") == [year]
    requires IndicesOf(names, "City") == [city]
    requires IndicesOf(names, "Violations") == [violations]
    requires IndicesOf(names, "Value") == [value]
    ensures Positions(names, Features) == [year, city, violations, value]
  {
    assert Positions(names, ["Value"]) == [value] by {
      assert ["Value"][1..] == [];
    }
    assert Positions(names, ["Violations", "Value"]) == [violations, value] by {
      assert ["Violations", "Value"][1..] == ["Value"];
    }
    assert Positions(names, ["City", "Violations", "Value"]) == [city, violations, value] by {
      assert ["City", "Violations", "Value"][1..] == ["Violations", "Value"];
    }
    assert Features[1..] == ["City", "Violations", "Value"];
  }

  /** With each feature label unique, `select_features` yields exactly the
      columns [Year, City, Violations, Value], each the input column of that
      name, over the same rows. */
  lemma SelectFeaturesExact(t: Table, year: nat, city: nat, violations: nat, value: nat)
    requires Rectangular(t)
    requires FeatureLabelsUnique(t.columns)
    requires year < |t.columns| && t.columns[year] == "Year"
    requires city < |t.columns| && t.columns[city] == "City"
    requires violations < |t.columns| && t.columns[violations] == "Violations"
    requires value < |t.columns| && t.columns[value] == "Value"
    ensures var r := SelectFeatures(t);
      && r.Ok?
      && r.value.columns == Features
      && |r.value.rows| == |t.rows|
      && forall k :: 0 <= k < |t.rows| ==>
           r.value.rows[k] == [t.rows[k][year], t.rows[k][city], t.rows[k][violations], t.rows[k][value]]
  {
    FeatureIndices(t.columns, year, city, violations, value);
    SelectFeaturesAt(t, year, city, violations, value);
  }

  lemma FeatureIndices(names: seq<string>, year: nat, city: nat, violations: nat, value: nat)
    requires FeatureLabelsUnique(names)
    requires year < |names| && names[year] == "Year"
    requires city < |names| && names[city] == "City"
    requires violations < |names| && names[violations] == "Violations"
    requires value < |names| && names[value] == "Value"
    ensures Positions(names, Features) == [year, city, violations, value]
  {
    IndicesOfUnique(names, "Year", year);
    IndicesOfUnique(names, "City", city);
    IndicesOfUnique(names, "Violations", violations);
    IndicesOfUnique(names, "Value", value);
    PositionsOfFeatures(names, year, city, violations, value);
  }

  lemma SelectFeaturesAt(t: Table, year: nat, city: nat, violations: nat, value: nat)
    requires Rectangular(t)
    requires year < |t.columns| && t.columns[year] == "Year"
    requires city < |t.columns| && t.columns[city] == "City"
    requires violations < |t.columns| && t.columns[violations] == "Violations"
    requires value < |t.columns| && t.columns[value] == "Value"
    requires Positions(t.columns, Features) == [year, city, violations, value]
    ensures var r := SelectFeatures(t);
      && r.Ok?
      && r.value.columns == Features
      && |r.value.rows| == |t.rows|
      && forall k :: 0 <= k < |t.rows| ==>
           r.value.rows[k] == [t.rows[k][year], t.rows[k][city], t.rows[k][violations], t.rows[k][value]]
  {
    assert "Year" in t.columns && "City" in t.columns;
    assert "Violations" in t.columns && "Value" in t.columns;
    SelectFeaturesWhenPresent(t);
    ProjectFour(t, year, city, violations, value);
  }

  /** Four columns picked by position, over the same rows. */
  lemma ProjectFour(t: Table, a: nat, b: nat, c: nat, d: nat)
    requires Rectangular(t)
    requires a < |t.columns| && b < |t.columns| && c < |t.columns| && d < |t.columns|
    ensures var p := Project(t, [a, b, c, d]);
      && p.columns == [t.columns[a], t.columns[b], t.columns[c], t.columns[d]]
      && |p.rows| == |t.rows|
      && forall k :: 0 <= k < |t.rows| ==>
           p.rows[k] == [t.rows[k][a], t.rows[k][b], t.rows[k][c], t.rows[k][d]]
  {
    var pos := [a, b, c, d];
    var p := Project(t, pos);
    FourCells(p.columns, t.columns[a], t.columns[b], t.columns[c], t.columns[d]);
    forall k | 0 <= k < |t.rows|
      ensures p.rows[k] == [t.rows[k][a], t.rows[k][b], t.rows[k][c], t.rows[k][d]]
    {
      ProjectedRow(t, p, pos, k);
    }
  }

  lemma SelectFeaturesWhenPresent(t: Table)
    requires Rectangular(t)
    requires "Year" in t.columns && "City" in t.columns
    requires "Violations" in t.columns && "Value" in t.columns
    ensures SelectFeatures(t) == Ok(Project(t, Positions(t.columns, Features)))
  {
    FilterNoneSatisfy(Features, Absent(t.columns));
  }

  lemma ProjectedRow(t: Table, p: Table, pos: seq<nat>, k: nat)
    requires ProjectedFrom(t, p, pos) && |pos| == 4 && k < |t.rows|
    ensures p.rows[k] == [t.rows[k][pos[0]], t.rows[k][pos[1]], t.rows[k][pos[2]], t.rows[k][pos[3]]]
  {
    FourCells(p.rows[k], t.rows[k][pos[0]], t.rows[k][pos[1]], t.rows[k][pos[2]], t.rows[k][pos[3]]);
  }

  lemma FourCells<T>(row: seq<T>, a: T, b: T, c: T, d: T)
    requires |row| == 4 && row[0] == a && row[1] == b && row[2] == c && row[3] == d
    ensures row == [a, b, c, d]
  {
  }

  // ---------------------------------------------------------------------
  // clean_data
  // ---------------------------------------------------------------------

  /** `clean_data` after the CSV has been read into `raw`. */
  function CleanData(raw: Table, strategy: string): (r: Result<Table, Error>)
    requires Rectangular(raw) && AtMostOnce(raw.columns, StatisticsColumn)
    requires strategy != "mean"
    requires strategy == "zero" || strategy == "drop" ==> AtMostOnce(raw.columns, RawValueColumn)
    ensures r.Err? <==>
      || StatisticsColumn !in raw.columns
      || ((strategy == "zero" || strategy == "drop") && RawValueColumn !in raw.columns)
      || exists f :: f in Features && f !in RenameColumns(raw).columns
    ensures r.Err? ==> r.error.missing != []
    ensures r.Err? ==> forall f :: f in r.error.missing ==> f !in RenameColumns(raw).columns
    ensures r.Ok? ==> Rectangular(r.value)
    ensures r.Ok? ==> forall m :: 0 <= m < |r.value.columns| ==> r.value.columns[m] in Features
    ensures r.Ok? ==> forall f :: f in Features ==> f in r.value.columns
  {
    var filtered :- FilterActualIncidents(raw);
    var handled :- HandleMissingValues(filtered, strategy);
    assert RenameColumns(handled).columns == RenameColumns(raw).columns;
    SelectFeatures(RenameColumns(handled))
  }

  /** One raw row as the pipeline turns it into a cleaned row with the 'zero'
      strategy, given the raw positions of REF_DATE, GEO, Violations and VALUE. */
  function ZeroFilledRow(year: nat, geo: nat, violations: nat, value: nat): Row -> Row {
    (row: Row) =>
      if year < |row| && geo < |row| && violations < |row| && value < |row|
      then [row[year], row[geo], row[violations], FillZero(row[value])]
      else []
  }

  /** The raw positions an end-to-end run reads: unique labels, the five raw
      columns present, and none of the new names already taken. */
  ghost predicate RawLayout(raw: Table, stat: nat, year: nat, geo: nat, violations: nat, value: nat) {
    && Rectangular(raw) && NoDup(raw.columns)
    && stat < |raw.columns| && raw.columns[stat] == "Statistics"
    && year < |raw.columns| && raw.columns[year] == "REF_DATE"
    && geo < |raw.columns| && raw.columns[geo] == "GEO"
    && violations < |raw.columns| && raw.columns[violations] == "Violations"
    && value < |raw.columns| && raw.columns[value] == "VALUE"
    && "Year" !in raw.columns && "City" !in raw.columns && "Value" !in raw.columns
  }

  lemma RenamedLabelsUnique(raw: Table, handled: Table, stat: nat, year: nat, geo: nat, violations: nat, value: nat)
    requires RawLayout(raw, stat, year, geo, violations, value)
    requires handled.columns == raw.columns
    ensures FeatureLabelsUnique(RenameColumns(handled).columns)
    ensures var names := RenameColumns(handled).columns;
      names[year] == "Year" && names[geo] == "City" && names[violations] == "Violations" && names[value] == "Value"
  {
    var names := RenameColumns(handled).columns;
    forall f: string
      ensures AtMostOnce(names, f)
    {
      forall i, j | 0 <= i < j < |names| && names[i] == f
        ensures names[j] != f
      {
        assert raw.columns[i] != raw.columns[j];
      }
    }
  }

  /** The filter step when `Statistics` is at `stat` alone. */
  lemma FilterActualIncidentsAt(raw: Table, stat: nat)
    requires Rectangular(raw) && AtMostOnce(raw.columns, StatisticsColumn)
    requires stat < |raw.columns| && raw.columns[stat] == StatisticsColumn
    ensures FilterActualIncidents(raw) == Ok(Table(raw.columns, Filter(raw.rows, IsActualIncident(stat))))
  {
    IndexOfUnique(raw.columns, StatisticsColumn, stat);
  }

  /** The 'zero' step when `VALUE` is at `value` alone. */
  lemma FillMissingAt(t: Table, value: nat)
    requires Rectangular(t) && AtMostOnce(t.columns, RawValueColumn)
    requires value < |t.columns| && t.columns[value] == RawValueColumn
    ensures HandleMissingValues(t, "zero") == Ok(Table(t.columns, MapSeq(t.rows, FillRow(value))))
  {
    IndexOfUnique(t.columns, RawValueColumn, value);
  }

  /** End to end with the default 'zero' strategy, on a raw table with unique
      labels in the raw naming: the result has the columns [Year, City,
      Violations, Value] and one row per "Actual incidents" row, in order,
      carrying its REF_DATE, GEO and Violations cells and its VALUE, or 0
      where VALUE was missing. */
  lemma CleanDataWithZeroFill(raw: Table, stat: nat, year: nat, geo: nat, violations: nat, value: nat)
    requires RawLayout(raw, stat, year, geo, violations, value)
    ensures var r := CleanData(raw, "zero");
      && r.Ok?
      && r.value.columns == Features
      && r.value.rows == MapSeq(Filter(raw.rows, IsActualIncident(stat)), ZeroFilledRow(year, geo, violations, value))
  {
    var kept := Filter(raw.rows, IsActualIncident(stat));
    FilterActualIncidentsAt(raw, stat);
    var filtered := Table(raw.columns, kept);
    FillMissingAt(filtered, value);
    var handled := Table(raw.columns, MapSeq(kept, FillRow(value)));
    RenamedLabelsUnique(raw, handled, stat, year, geo, violations, value);
    var renamed := RenameColumns(handled);
    SelectFeaturesExact(renamed, year, geo, violations, value);
    var out := SelectFeatures(renamed).value;
    assert CleanData(raw, "zero") == Ok(out);
    ZeroFilledRowsMatch(raw, kept, out, year, geo, violations, value);
  }

  lemma ZeroFilledRowsMatch(raw: Table, kept: seq<Row>, out: Table, year: nat, geo: nat, violations: nat, value: nat)
    requires Rectangular(raw)
    requires year < |raw.columns| && geo < |raw.columns| && violations < |raw.columns| && value < |raw.columns|
    requires year != value && geo != value && violations != value
    requires forall row :: row in kept ==> row in raw.rows
    requires |out.rows| == |kept|
    requires var filled := MapSeq(kept, FillRow(value));
      forall k :: 0 <= k < |kept| ==>
        out.rows[k] == [filled[k][year], filled[k][geo], filled[k][violations], filled[k][value]]
    ensures out.rows == MapSeq(kept, ZeroFilledRow(year, geo, violations, value))
  {
    var expected := MapSeq(kept, ZeroFilledRow(year, geo, violations, value));
    var filled := MapSeq(kept, FillRow(value));
    forall k | 0 <= k < |kept|
      ensures out.rows[k] == expected[k]
    {
      assert kept[k] in raw.rows;
      ZeroFilledRowOf(kept[k], year, geo, violations, value);
    }
  }

  lemma ZeroFilledRowOf(row: Row, year: nat, geo: nat, violations: nat, value: nat)
    requires year < |row| && geo < |row| && violations < |row| && value < |row|
    requires year != value && geo != value && violations != value
    ensures var filled := FillRow(value)(row);
      ZeroFilledRow(year, geo, violations, value)(row)
        == [filled[year], filled[geo], filled[violations], filled[value]]
  {
  }
}

=== FILE: clustering.dfy ===
/** src/clustering.py: the city-by-violation table the clustering runs on,
    and the per-cluster profiles built from the cluster labels. Scaling,
    k-means and PCA are outside this model; the labels are an input. */
module Clustering {
  import opened Seqs
  import opened Order
  import opened Grouping
  import opened Records
  import opened Numbers

  /** The group key of the pivot: a city and a violation. */
  datatype CellKey = CellKey(city: string, violation: string)

  function CellKeyOf(r: Record): CellKey {
    CellKey(r.city, r.violation)
  }

  /** pandas orders a two-level group key by city, then by violation. */
  predicate CellKeyLess(a: CellKey, b: CellKey) {
    LexLess(a.city, b.city) || (a.city == b.city && LexLess(a.violation, b.violation))
  }

  lemma CellKeyLessIsStrictTotal()
    ensures StrictTotalOrder(CellKeyLess)
  {
    LexLessIsStrictTotal();
    forall a: CellKey, b: CellKey, c: CellKey | CellKeyLess(a, b) && CellKeyLess(b, c)
      ensures CellKeyLess(a, c)
    {
      if a.city == b.city && b.city == c.city {
        assert LexLess(a.violation, b.violation) && LexLess(b.violation, c.violation);
      }
    }
    forall a: CellKey, b: CellKey | a != b
      ensures CellKeyLess(a, b) || CellKeyLess(b, a)
    {
      if a.city == b.city {
        assert a.violation != b.violation;
      }
    }
  }

  // ---------------------------------------------------------------------
  // prepare_clustering_data
  // ---------------------------------------------------------------------

  /** The city-by-violation table: one row per city, one column per
      violation, one cell per (city, violation). */
  datatype Pivot = Pivot(cities: seq<string>, violations: seq<string>, cells: seq<seq<int>>)

  /** One pivot row read off the group sums; an absent pair reads as 0. */
  function RowCells(sums: seq<Entry<CellKey>>, city: string, violations: seq<string>): (r: seq<int>)
    ensures |r| == |violations|
    ensures forall j :: 0 <= j < |violations| ==> r[j] == TotalOf(sums, CellKey(city, violations[j]))
  {
    if |violations| == 0 then []
    else [TotalOf(sums, CellKey(city, violations[0]))] + RowCells(sums, city, violations[1..])
  }

  function Grid(sums: seq<Entry<CellKey>>, cities: seq<string>, violations: seq<string>): (g: seq<seq<int>>)
    ensures |g| == |cities|
    ensures forall i :: 0 <= i < |cities| ==> g[i] == RowCells(sums, cities[i], violations)
  {
    if |cities| == 0 then []
    else [RowCells(sums, cities[0], violations)] + Grid(sums, cities[1..], violations)
  }

  /** `prepare_clustering_data`:
      the Value column summed by (City, Violations) and spread into a
      city-by-violation grid with 0 where a pair has no row.
      Rows are the distinct cities and columns the distinct violations, both
      sorted; cell (c, v) is the sum of Value over the rows with City c and
      Violations v, which is 0 when there is no such row. */
  function PrepareClusteringData(df: seq<Record>): (p: Pivot)
    ensures IsKeyIndex(df, CityOf, p.cities, LexLess)
    ensures IsKeyIndex(df, ViolationOf, p.violations, LexLess)
    ensures |p.cells| == |p.cities|
    ensures forall i :: 0 <= i < |p.cities| ==> |p.cells[i]| == |p.violations|
    ensures forall i, j :: 0 <= i < |p.cities| && 0 <= j < |p.violations| ==>
      p.cells[i][j] == SumBy(df, CellKeyOf, CellKey(p.cities[i], p.violations[j]), ValueOf)
  {
    LexLessIsStrictTotal();
    CellKeyLessIsStrictTotal();
    var sums := GroupSum(df, CellKeyOf, ValueOf, CellKeyLess);
    var cities := SortedKeys(df, CityOf, LexLess);
    var violations := SortedKeys(df, ViolationOf, LexLess);
    GridCells(df, sums, cities, violations);
    Pivot(cities, violations, Grid(sums, cities, violations))
  }

  lemma GridCells(df: seq<Record>, sums: seq<Entry<CellKey>>, cities: seq<string>, violations: seq<string>)
    requires forall k :: TotalOf(sums, k) == SumBy(df, CellKeyOf, k, ValueOf)
    ensures var g := Grid(sums, cities, violations);
      forall i, j :: 0 <= i < |cities| && 0 <= j < |violations| ==>
        |g[i]| == |violations| && g[i][j] == SumBy(df, CellKeyOf, CellKey(cities[i], violations[j]), ValueOf)
  {
  }

  /** A (city, violation) pair with no row in the table gets the fill value
      0; a pair with rows gets their sum. */
  lemma PivotCellWithoutRows(df: seq<Record>, p: Pivot, i: nat, j: nat)
    requires p == PrepareClusteringData(df)
    requires i < |p.cities| && j < |p.violations|
    requires forall x :: x in df ==> x.city != p.cities[i] || x.violation != p.violations[j]
    ensures p.cells[i][j] == 0
  {
    SumByAbsent(df, CellKeyOf, CellKey(p.cities[i], p.violations[j]), ValueOf);
  }

  /** The sum over a (city, violation) group is the violation group's sum
      within the city's rows. */
  lemma {:induction false} CellSumWithinCity(s: seq<Record>, c: string, v: string)
    ensures SumBy(s, CellKeyOf, CellKey(c, v), ValueOf)
         == SumBy(Filter(s, KeyIs(CityOf, c)), ViolationOf, v, ValueOf)
  {
    if |s| > 0 {
      assert s == [s[0]] + s[1..];
      SumByCons(s[0], s[1..], CellKeyOf, CellKey(c, v), ValueOf);
      CellSumWithinCity(s[1..], c, v);
      var p := KeyIs(CityOf, c);
      FilterCons(s[0], s[1..], p);
      if s[0].city == c {
        SumByCons(s[0], Filter(s[1..], p), ViolationOf, v, ValueOf);
      }
    }
  }

  /** A pivot row adds up to the group sums of its violations within the
      city's rows. */
  lemma {:induction false} RowCellsTotal(df: seq<Record>, sums: seq<Entry<CellKey>>, c: string, vs: seq<string>)
    requires forall k :: TotalOf(sums, k) == SumBy(df, CellKeyOf, k, ValueOf)
    ensures Sum(RowCells(sums, c, vs)) == SumByKeys(Filter(df, KeyIs(CityOf, c)), ViolationOf, vs, ValueOf)
  {
    if |vs| > 0 {
      var r := RowCells(sums, c, vs);
      assert r[1..] == RowCells(sums, c, vs[1..]);
      CellSumWithinCity(df, c, vs[0]);
      RowCellsTotal(df, sums, c, vs[1..]);
    }
  }

  /** A pivot row adds up to the city's total, when the columns cover every
      violation of the table. */
  lemma RowTotalIsCityTotal(df: seq<Record>, sums: seq<Entry<CellKey>>, c: string, vs: seq<string>)
    requires forall k :: TotalOf(sums, k) == SumBy(df, CellKeyOf, k, ValueOf)
    requires NoDup(vs) && forall x :: x in df ==> x.violation in vs
    ensures Sum(RowCells(sums, c, vs)) == SumBy(df, CityOf, c, ValueOf)
  {
    RowCellsTotal(df, sums, c, vs);
    SumByKeysPartition(Filter(df, KeyIs(CityOf, c)), ViolationOf, vs, ValueOf);
  }

  /** The total over every cell of a table of rows. */
  function GridTotal(cells: seq<seq<int>>): int {
    SumOf(cells, Sum)
  }

  lemma {:induction false} GridTotalByCity(df: seq<Record>, sums: seq<Entry<CellKey>>, cs: seq<string>, vs: seq<string>)
    requires forall k :: TotalOf(sums, k) == SumBy(df, CellKeyOf, k, ValueOf)
    requires NoDup(vs) && forall x :: x in df ==> x.violation in vs
    ensures GridTotal(Grid(sums, cs, vs)) == SumByKeys(df, CityOf, cs, ValueOf)
  {
    if |cs| > 0 {
      var g := Grid(sums, cs, vs);
      assert g[1..] == Grid(sums, cs[1..], vs);
      RowTotalIsCityTotal(df, sums, cs[0], vs);
      GridTotalByCity(df, sums, cs[1..], vs);
    }
  }

  /** The pivot's grand total is the total of Value over the table: the fill
      value adds nothing and every row lands in exactly one cell. */
  lemma PivotPreservesTotal(df: seq<Record>)
    ensures GridTotal(PrepareClusteringData(df).cells) == SumOf(df, ValueOf)
  {
    LexLessIsStrictTotal();
    CellKeyLessIsStrictTotal();
    var sums := GroupSum(df, CellKeyOf, ValueOf, CellKeyLess);
    var cities := SortedKeys(df, CityOf, LexLess);
    var violations := SortedKeys(df, ViolationOf, LexLess);
    SortedNoDup(cities, LexLess);
    SortedNoDup(violations, LexLess);
    GridTotalByCity(df, sums, cities, violations);
    SumByKeysPartition(df, CityOf, cities, ValueOf);
  }
  // ---------------------------------------------------------------------
  // get_cluster_profiles
  // ---------------------------------------------------------------------

  /** The label column `get_cluster_profiles` adds to the pivot, and then
      drops before adding up a row. A violation column of that name is
      overwritten by the labels and so dropped as well. */
  const ClusterColumn: string := "Cluster"

  /** A pivot row once the labels are attached: its city, its total over the
      violation columns that survive the drop, and its cluster label. */
  datatype LabelledRow = LabelledRow(city: string, total: int, cluster: int)

  function RowCity(m: LabelledRow): string {
    m.city
  }

  function RowTotal(m: LabelledRow): int {
    m.total
  }

  function RowCluster(m: LabelledRow): int {
    m.cluster
  }

  /** A row's total with one column dropped: the cells of every
      column except those labelled `dropped`. */
  function RowTotalWithout(violations: seq<string>, row: seq<int>, dropped: string): int
    requires |row| == |violations|
  {
    if |row| == 0 then 0
    else (if violations[0] == dropped then 0 else row[0]) + RowTotalWithout(violations[1..], row[1..], dropped)
  }

  /** Dropping a column that is not there changes no row total. */
  lemma {:induction false} RowTotalWithoutAbsent(violations: seq<string>, row: seq<int>, dropped: string)
    requires |row| == |violations| && dropped !in violations
    ensures RowTotalWithout(violations, row, dropped) == Sum(row)
  {
    if |row| > 0 {
      assert violations[0] in violations;
      assert forall v :: v in violations[1..] ==> v in violations;
      RowTotalWithoutAbsent(violations[1..], row[1..], dropped);
    }
  }

  /** A pivot of the shape `unstack` produces: one row per city, one cell
      per violation in each. */
  ghost predicate WellShaped(p: Pivot) {
    && |p.cells| == |p.cities|
    && forall i :: 0 <= i < |p.cities| ==> |p.cells[i]| == |p.violations|
  }

  /** The pivot with each row's cluster label attached, and each row's total. */
  function LabelledRows(p: Pivot, labels: seq<int>): (r: seq<LabelledRow>)
    requires WellShaped(p) && |labels| == |p.cities|
    ensures |r| == |p.cities|
    ensures forall i :: 0 <= i < |r| ==>
      r[i] == LabelledRow(p.cities[i], RowTotalWithout(p.violations, p.cells[i], ClusterColumn), labels[i])
  {
    seq(|labels|, i requires 0 <= i < |labels| =>
      LabelledRow(p.cities[i], RowTotalWithout(p.violations, p.cells[i], ClusterColumn), labels[i]))
  }

  /** `np.unique(cluster_labels)`: the distinct labels, ascending. */
  function UniqueLabels(labels: seq<int>): (r: seq<int>)
    ensures IsKeyIndex(labels, Id, r, IntLess)
    ensures forall j :: 0 <= j < |r| ==> r[j] in labels
  {
    IntLessIsStrictTotal();
    var r := SortedKeys(labels, Id, IntLess);
    forall j | 0 <= j < |r|
      ensures r[j] in labels
    {
      assert r[j] in r;
      var x := FilterWitness(labels, KeyIs(Id, r[j]));
    }
    r
  }

  /** One decimal digit. */
  function Digit(d: nat): (c: char)
    requires d < 10
    ensures '0' <= c <= '9' && c as int - '0' as int == d
  {
    ('0' as int + d) as char
  }

  /** Python's `str` of a natural number: decimal, no leading zeros. */
  function NatToString(n: nat): (r: string)
    ensures |r| >= 1 && (n < 10 <==> |r| == 1)
    ensures forall i :: 0 <= i < |r| ==> '0' <= r[i] <= '9'
  {
    if n < 10 then [Digit(n)] else NatToString(n / 10) + [Digit(n % 10)]
  }

  /** Python's `str` of an integer. */
  function IntToString(n: int): string {
    if n < 0 then "-" + NatToString(-n) else NatToString(n)
  }

  lemma {:induction false} NatToStringInjective(a: nat, b: nat)
    requires NatToString(a) == NatToString(b)
    ensures a == b
  {
    var s := NatToString(a);
    if a >= 10 && b >= 10 {
      assert s[..|s| - 1] == NatToString(a / 10) && s[..|s| - 1] == NatToString(b / 10);
      NatToStringInjective(a / 10, b / 10);
      assert Digit(a % 10) == s[|s| - 1] == Digit(b % 10);
    }
  }

  lemma IntToStringInjective(a: int, b: int)
    requires IntToString(a) == IntToString(b)
    ensures a == b
  {
    var s := IntToString(a);
    assert (a < 0) == (s[0] == '-');
    assert (b < 0) == (s[0] == '-');
    if a < 0 && b < 0 {
      assert s[1..] == NatToString(-a) && s[1..] == NatToString(-b);
      NatToStringInjective(-a, -b);
    } else if a >= 0 && b >= 0 {
      NatToStringInjective(a, b);
    }
  }

  /** The key of a profile: "Cluster_" followed by the label in decimal. */
  function ClusterName(cluster: int): string {
    "Cluster_" + IntToString(cluster)
  }

  /** Distinct labels give distinct profile keys, so no profile overwrites
      another in the dictionary. */
  lemma ClusterNameInjective(a: int, b: int)
    ensures ClusterName(a) == ClusterName(b) <==> a == b
  {
    if ClusterName(a) == ClusterName(b) {
      assert IntToString(a) == ClusterName(a)[8..] && IntToString(b) == ClusterName(b)[8..];
      IntToStringInjective(a, b);
    }
  }

  datatype RiskLevel = Low | Moderate | High | Unknown

  /** The risk level of a cluster: Low, Moderate and High for labels 0, 1
      and 2, and Unknown for a label of 3 or more.
      Python indexes a negative label from the end of the list, so -1, -2
      and -3 read High, Moderate and Low; a label below -3 raises
      `IndexError`, which callers must rule out. */
  function RiskLevelOf(cluster: int): (r: RiskLevel)
    requires cluster >= -3
    ensures r == Unknown <==> cluster >= 3
    ensures r == Low <==> cluster == 0 || cluster == -3
    ensures r == Moderate <==> cluster == 1 || cluster == -2
    ensures r == High <==> cluster == 2 || cluster == -1
  {
    if cluster < 3 then
      var levels := [Low, Moderate, High];
      if cluster >= 0 then levels[cluster] else levels[|levels| + cluster]
    else Unknown
  }

  /** One cluster's profile. */
  datatype Profile = Profile(name: string, cities: seq<string>, avgTotalCrime: real, riskLevel: RiskLevel)

  /** `sel` is the city column of the rows labelled `c`, in row order: the
      cities of the pivot rows whose label is `c`. */
  ghost predicate ClusterSelection(rows: seq<LabelledRow>, c: int, sel: seq<string>) {
    exists g :: IsSelection(rows, KeyIs(RowCluster, c), g) && sel == MapSeq(g, RowCity)
  }

  /** The profile of cluster `c`: the pivot rows labelled `c`, their cities
      in row order, the mean of its row totals, and its risk level. The
      cluster is one of the labels, so it has a row and the mean divides by
      a positive count. */
  function ProfileOf(rows: seq<LabelledRow>, c: int): (r: Profile)
    requires c >= -3 && Filter(rows, KeyIs(RowCluster, c)) != []
    ensures r.name == ClusterName(c) && r.riskLevel == RiskLevelOf(c)
    ensures |r.cities| > 0
    ensures r.avgTotalCrime == Mean(SumBy(rows, RowCluster, c, RowTotal), |r.cities|)
  {
    var group := Filter(rows, KeyIs(RowCluster, c));
    var cities := MapSeq(group, RowCity);
    Profile(ClusterName(c), cities, Mean(SumOf(group, RowTotal), |cities|), RiskLevelOf(c))
  }

  /** A profile lists, in row order, exactly the cities labelled with its
      cluster. */
  lemma ProfileCities(rows: seq<LabelledRow>, c: int)
    requires c >= -3 && Filter(rows, KeyIs(RowCluster, c)) != []
    ensures ClusterSelection(rows, c, ProfileOf(rows, c).cities)
  {
    FilterSelects(rows, KeyIs(RowCluster, c));
  }

  function ProfilesFor(rows: seq<LabelledRow>, cs: seq<int>): (r: seq<Profile>)
    requires forall j :: 0 <= j < |cs| ==> cs[j] >= -3 && Filter(rows, KeyIs(RowCluster, cs[j])) != []
    ensures |r| == |cs| && forall j :: 0 <= j < |cs| ==> r[j] == ProfileOf(rows, cs[j])
  {
    seq(|cs|, j requires 0 <= j < |cs| => ProfileOf(rows, cs[j]))
  }

  /** Each profile built for a list of clusters lists, in row order, exactly
      the cities labelled with its cluster. */
  lemma ProfilesForCities(rows: seq<LabelledRow>, cs: seq<int>)
    requires forall j :: 0 <= j < |cs| ==> cs[j] >= -3 && Filter(rows, KeyIs(RowCluster, cs[j])) != []
    ensures forall j :: 0 <= j < |cs| ==> ClusterSelection(rows, cs[j], ProfilesFor(rows, cs)[j].cities)
  {
    forall j | 0 <= j < |cs|
      ensures ClusterSelection(rows, cs[j], ProfilesFor(rows, cs)[j].cities)
    {
      ProfileCities(rows, cs[j]);
    }
  }

  /** Every distinct label names a cluster that has at least one row. */
  lemma LabelsHaveRows(rows: seq<LabelledRow>, labels: seq<int>)
    requires |rows| == |labels| && forall i :: 0 <= i < |rows| ==> rows[i].cluster == labels[i]
    ensures forall j :: 0 <= j < |UniqueLabels(labels)| ==>
      Filter(rows, KeyIs(RowCluster, UniqueLabels(labels)[j])) != []
  {
    var cs := UniqueLabels(labels);
    forall j | 0 <= j < |cs|
      ensures Filter(rows, KeyIs(RowCluster, cs[j])) != []
    {
      var i :| 0 <= i < |labels| && labels[i] == cs[j];
      assert RowCluster(rows[i]) == cs[j];
      assert rows[i] in rows;
      FilterKeepsWitness(rows, KeyIs(RowCluster, cs[j]), rows[i]);
    }
  }

  /** The labels the profiles may be built from: one per pivot row, none
      below -3 (the risk-level list has three entries). */
  ghost predicate ValidLabels(p: Pivot, labels: seq<int>) {
    && WellShaped(p)
    && |labels| == |p.cities|
    && forall i :: 0 <= i < |labels| ==> labels[i] >= -3
  }

  /** The loop of `get_cluster_profiles` over `np.unique(cluster_labels)`
      on a labelled pivot: one profile per distinct label, in ascending
      label order, which is also the dictionary's insertion order. */
  function ClusterProfiles(p: Pivot, labels: seq<int>): (r: seq<Profile>)
    requires ValidLabels(p, labels)
    ensures |r| == |UniqueLabels(labels)|
    ensures forall j :: 0 <= j < |r| ==>
      && r[j].name == ClusterName(UniqueLabels(labels)[j])
      && r[j].riskLevel == RiskLevelOf(UniqueLabels(labels)[j])
      && |r[j].cities| > 0
    ensures forall j :: 0 <= j < |r| ==>
      && ClusterSelection(LabelledRows(p, labels), UniqueLabels(labels)[j], r[j].cities)
      && r[j].avgTotalCrime == Mean(SumBy(LabelledRows(p, labels), RowCluster, UniqueLabels(labels)[j], RowTotal), |r[j].cities|)
  {
    var rows := LabelledRows(p, labels);
    var cs := UniqueLabels(labels);
    LabelsHaveRows(rows, labels);
    ProfilesForCities(rows, cs);
    ProfilesFor(rows, cs)
  }

  /** `get_cluster_profiles(df, cluster_labels)`. */
  function GetClusterProfiles(df: seq<Record>, labels: seq<int>): (r: seq<Profile>)
    requires |labels| == |PrepareClusteringData(df).cities|
    requires forall i :: 0 <= i < |labels| ==> labels[i] >= -3
    ensures |r| == |UniqueLabels(labels)|
    ensures forall j :: 0 <= j < |r| ==>
      && r[j].name == ClusterName(UniqueLabels(labels)[j])
      && r[j].riskLevel == RiskLevelOf(UniqueLabels(labels)[j])
      && |r[j].cities| > 0
    ensures var p := PrepareClusteringData(df);
      forall j :: 0 <= j < |r| ==>
        && ClusterSelection(LabelledRows(p, labels), UniqueLabels(labels)[j], r[j].cities)
        && r[j].avgTotalCrime == Mean(SumBy(LabelledRows(p, labels), RowCluster, UniqueLabels(labels)[j], RowTotal), |r[j].cities|)
  {
    ClusterProfiles(PrepareClusteringData(df), labels)
  }

  /** A profile's mean times its number of cities is the total of its
      cities' rows. */
  function Weight(pr: Profile): real {
    Scaled(pr.avgTotalCrime, |pr.cities|)
  }

  /** The profiles' means weighted by their sizes, added up. */
  function WeightedTotal(ps: seq<Profile>): real {
    if |ps| == 0 then 0.0 else Weight(ps[0]) + WeightedTotal(ps[1..])
  }

  lemma ProfileWeight(rows: seq<LabelledRow>, c: int)
    requires c >= -3 && Filter(rows, KeyIs(RowCluster, c)) != []
    ensures Weight(ProfileOf(rows, c)) == SumBy(rows, RowCluster, c, RowTotal) as real
  {
    var pr := ProfileOf(rows, c);
    var total := SumBy(rows, RowCluster, c, RowTotal);
    var m := Mean(total, |pr.cities|);
    assert pr.avgTotalCrime == m;
  }

  lemma {:induction false} ProfilesWeightedTotal(rows: seq<LabelledRow>, cs: seq<int>)
    requires forall j :: 0 <= j < |cs| ==> cs[j] >= -3 && Filter(rows, KeyIs(RowCluster, cs[j])) != []
    ensures WeightedTotal(ProfilesFor(rows, cs)) == SumByKeys(rows, RowCluster, cs, RowTotal) as real
  {
    if |cs| > 0 {
      var ps := ProfilesFor(rows, cs);
      assert ps[1..] == ProfilesFor(rows, cs[1..]);
      ProfileWeight(rows, cs[0]);
      ProfilesWeightedTotal(rows, cs[1..]);
    }
  }

  /** Every labelled row belongs to exactly one profile, so the profiles'
      weighted means add up to the total over all rows. */
  lemma ClusterProfilesCoverRows(p: Pivot, labels: seq<int>)
    requires ValidLabels(p, labels)
    ensures WeightedTotal(ClusterProfiles(p, labels)) == SumOf(LabelledRows(p, labels), RowTotal) as real
  {
    var rows := LabelledRows(p, labels);
    var cs := UniqueLabels(labels);
    LabelsHaveRows(rows, labels);
    ProfilesWeightedTotal(rows, cs);
    IntLessIsStrictTotal();
    SortedNoDup(cs, IntLess);
    forall x | x in rows
      ensures RowCluster(x) in cs
    {
      var i :| 0 <= i < |rows| && rows[i] == x;
      assert labels[i] in labels;
    }
    SumByKeysPartition(rows, RowCluster, cs, RowTotal);
  }

  /** When no violation is itself called "Cluster", the profiles' weighted
      means add up to the total of Value over the whole table. */
  lemma GetClusterProfilesCoverTable(df: seq<Record>, labels: seq<int>)
    requires |labels| == |PrepareClusteringData(df).cities|
    requires forall i :: 0 <= i < |labels| ==> labels[i] >= -3
    requires forall x :: x in df ==> x.violation != ClusterColumn
    ensures WeightedTotal(GetClusterProfiles(df, labels)) == SumOf(df, ValueOf) as real
  {
    var p := PrepareClusteringData(df);
    var rows := LabelledRows(p, labels);
    ClusterProfilesCoverRows(p, labels);
    NoClusterViolation(df);
    forall i | 0 <= i < |rows|
      ensures RowTotal(rows[i]) == Sum(p.cells[i])
    {
      RowTotalWithoutAbsent(p.violations, p.cells[i], ClusterColumn);
    }
    SumOfPointwise(rows, RowTotal, p.cells, Sum);
    PivotPreservesTotal(df);
  }

  lemma NoClusterViolation(df: seq<Record>)
    requires forall x :: x in df ==> x.violation != ClusterColumn
    ensures ClusterColumn !in PrepareClusteringData(df).violations
  {
    var vs := PrepareClusteringData(df).violations;
    if ClusterColumn in vs {
      var x := FilterWitness(df, KeyIs(ViolationOf, ClusterColumn));
    }
  }

  /** Distinct labels, distinct keys: the dictionary holds one profile per
      distinct label. */
  lemma ProfileNamesDistinct(p: Pivot, labels: seq<int>)
    requires ValidLabels(p, labels)
    ensures var r := ClusterProfiles(p, labels);
      forall j, k :: 0 <= j < k < |r| ==> r[j].name != r[k].name
  {
    var cs := UniqueLabels(labels);
    forall j, k | 0 <= j < k < |cs|
      ensures ClusterName(cs[j]) != ClusterName(cs[k])
    {
      ClusterNameInjective(cs[j], cs[k]);
    }
  }

  /** With distinct city names, a city is among the cities of the rows
      labelled `c` exactly when its own row is labelled `c`. */
  lemma CityInCluster(rows: seq<LabelledRow>, c: int, i: nat)
    requires forall a, b :: 0 <= a < b < |rows| ==> rows[a].city != rows[b].city
    requires i < |rows|
    ensures rows[i].city in MapSeq(Filter(rows, KeyIs(RowCluster, c)), RowCity) <==> rows[i].cluster == c
  {
    if rows[i].cluster == c {
      LabelledCityListed(rows, c, i);
    } else {
      UnlabelledCityAbsent(rows, c, i);
    }
  }

  lemma LabelledCityListed(rows: seq<LabelledRow>, c: int, i: nat)
    requires i < |rows| && rows[i].cluster == c
    ensures rows[i].city in MapSeq(Filter(rows, KeyIs(RowCluster, c)), RowCity)
  {
    var g := Filter(rows, KeyIs(RowCluster, c));
    assert RowCluster(rows[i]) == c;
    assert rows[i] in rows;
    FilterKeepsWitness(rows, KeyIs(RowCluster, c), rows[i]);
    var k :| 0 <= k < |g| && g[k] == rows[i];
    assert MapSeq(g, RowCity)[k] == rows[i].city;
  }

  lemma UnlabelledCityAbsent(rows: seq<LabelledRow>, c: int, i: nat)
    requires forall a, b :: 0 <= a < b < |rows| ==> rows[a].city != rows[b].city
    requires i < |rows| && rows[i].cluster != c
    ensures rows[i].city !in MapSeq(Filter(rows, KeyIs(RowCluster, c)), RowCity)
  {
    var g := Filter(rows, KeyIs(RowCluster, c));
    var cities := MapSeq(g, RowCity);
    forall k | 0 <= k < |cities|
      ensures cities[k] != rows[i].city
    {
      assert g[k] in g;
      var m :| 0 <= m < |rows| && rows[m] == g[k];
      assert m != i;
    }
  }

  /** The profiles partition the pivot's cities by label: city `i` is in
      the profile of the `j`-th distinct label exactly when its label is
      that one. */
  lemma ProfilesPartitionCities(p: Pivot, labels: seq<int>, i: nat, j: nat)
    requires ValidLabels(p, labels) && NoDup(p.cities)
    requires i < |p.cities| && j < |UniqueLabels(labels)|
    ensures p.cities[i] in ClusterProfiles(p, labels)[j].cities <==> labels[i] == UniqueLabels(labels)[j]
  {
    var rows := LabelledRows(p, labels);
    var c := UniqueLabels(labels)[j];
    LabelsHaveRows(rows, labels);
    assert ClusterProfiles(p, labels)[j].cities == MapSeq(Filter(rows, KeyIs(RowCluster, c)), RowCity);
    CityInCluster(rows, c, i);
  }
}

=== FILE: forecasting.dfy ===
/** src/forecasting.py: the yearly series the models are fitted to, and the
    fixed-growth forecast. The exponential-smoothing fit itself is outside
    this model. */
module Forecasting {
  import opened Seqs
  import opened Order
  import opened Grouping
  import opened Records

  /** A yearly series: each entry holds a year and that year's total, as the
      pandas Series indexed by Year. */
  type Series = seq<Entry<int>>

  /** `prepare_time_series`: the Value column summed by Year -- one entry
      per year present, in ascending year order, holding the sum of Value
      over that year's rows. */
  function PrepareTimeSeries(df: seq<Record>): (ts: Series)
    ensures IsKeyIndex(df, YearOf, Keys(ts), IntLess)
    ensures forall j :: 0 <= j < |ts| ==> ts[j].total == SumBy(df, YearOf, ts[j].key, ValueOf)
  {
    IntLessIsStrictTotal();
    GroupSum(df, YearOf, ValueOf, IntLess)
  }

  /** The yearly totals add up to the total of Value over the whole table. */
  lemma TimeSeriesPreservesTotal(df: seq<Record>)
    ensures SumOf(PrepareTimeSeries(df), EntryTotal) == SumOf(df, ValueOf)
  {
    IntLessIsStrictTotal();
    GroupSumPreservesTotal(df, YearOf, ValueOf, IntLess);
  }

  /** The series' index is the sorted list of distinct years in the table. */
  lemma TimeSeriesYears(df: seq<Record>)
    ensures Keys(PrepareTimeSeries(df)) == SortedKeys(df, YearOf, IntLess)
  {
    IntLessIsStrictTotal();
    GroupSumKeys(df, YearOf, ValueOf, IntLess);
  }

  /** One forecast point: a year and its simulated total. */
  datatype Forecast = Forecast(year: int, value: real)

  /** `b ** n` for a natural exponent. */
  function Pow(b: real, n: nat): real {
    if n == 0 then 1.0 else b * Pow(b, n - 1)
  }

  /** `x` compounded `n` times by the factor `b`. */
  function Compound(x: real, b: real, n: nat): real {
    x * Pow(b, n)
  }

  lemma {:induction false} PowOfOne(n: nat)
    ensures Pow(1.0, n) == 1.0
  {
    if n > 0 {
      PowOfOne(n - 1);
    }
  }

  /** The forecast points for steps `i` through `years`, counted from the
      last observed year and value. */
  function GrowthSteps(lastYear: int, lastValue: real, growthRate: real, i: nat, years: int): (f: seq<Forecast>)
    requires i >= 1
    ensures |f| == (if years >= i then years - i + 1 else 0)
    ensures forall k :: 0 <= k < |f| ==>
      f[k] == Forecast(lastYear + i + k, Compound(lastValue, 1.0 + growthRate, i + k))
    decreases years - i + 1
  {
    if i > years then []
    else [Forecast(lastYear + i, Compound(lastValue, 1.0 + growthRate, i))] + GrowthSteps(lastYear, lastValue, growthRate, i + 1, years)
  }

  /** `simulate_growth_forecast`: `years` points after the last entry of
      the series (none when `years` is 0 or negative); the i-th, for i from
      1, is for the last year plus i and the last total compounded i times
      by `1 + growthRate`. The series must not be empty: its last entry is
      read. */
  function SimulateGrowthForecast(ts: Series, growthRate: real, years: int): (f: seq<Forecast>)
    requires |ts| > 0
    ensures |f| == (if years > 0 then years else 0)
    ensures forall i :: 0 <= i < |f| ==> f[i].year == ts[|ts| - 1].key + i + 1
    ensures forall i :: 0 <= i < |f| ==>
      f[i].value == Compound(ts[|ts| - 1].total as real, 1.0 + growthRate, i + 1)
  {
    var last := ts[|ts| - 1];
    GrowthSteps(last.key, last.total as real, growthRate, 1, years)
  }

  /** Consecutive forecast points are one year apart, and each value is the
      previous one grown once by `1 + growthRate`; the first is the last
      observed total grown once. */
  lemma ForecastRecurrence(ts: Series, growthRate: real, years: int)
    requires |ts| > 0
    ensures var f := SimulateGrowthForecast(ts, growthRate, years);
      && (|f| > 0 ==> f[0].value == ts[|ts| - 1].total as real * (1.0 + growthRate))
      && forall i :: 0 <= i < |f| - 1 ==>
           f[i + 1].year == f[i].year + 1 && f[i + 1].value == f[i].value * (1.0 + growthRate)
  {
    var f := SimulateGrowthForecast(ts, growthRate, years);
    var last := ts[|ts| - 1].total as real;
    var b := 1.0 + growthRate;
    forall i | 0 <= i < |f| - 1
      ensures f[i + 1].value == f[i].value * b
    {
      assert f[i].value == Compound(last, b, i + 1);
      assert f[i + 1].value == Compound(last, b, i + 2);
      CompoundOnce(last, b, i + 1);
    }
    if |f| > 0 {
      assert f[0].value == Compound(last, b, 1);
      CompoundOnce(last, b, 0);
    }
  }

  /** Compounding once more multiplies by the growth factor. */
  lemma CompoundOnce(x: real, b: real, n: nat)
    ensures Compound(x, b, n + 1) == Compound(x, b, n) * b
  {
    var q := Pow(b, n);
    assert Pow(b, n + 1) == b * q;
    assert x * (b * q) == (x * q) * b;
  }

  /** With zero growth every forecast value is the last observed total. */
  lemma ZeroGrowthIsFlat(ts: Series, years: int)
    requires |ts| > 0
    ensures var f := SimulateGrowthForecast(ts, 0.0, years);
      forall i :: 0 <= i < |f| ==> f[i].value == ts[|ts| - 1].total as real
  {
    var f := SimulateGrowthForecast(ts, 0.0, years);
    forall i | 0 <= i < |f|
      ensures f[i].value == ts[|ts| - 1].total as real
    {
      PowOfOne(i + 1);
      assert Compound(ts[|ts| - 1].total as real, 1.0, i + 1) == ts[|ts| - 1].total as real * 1.0;
    }
  }

  /** On a series from `prepare_time_series`, every forecast year lies after
      every observed year, and the forecast years are strictly increasing. */
  lemma ForecastFollowsHistory(df: seq<Record>, growthRate: real, years: int)
    requires |df| > 0
    ensures var ts := PrepareTimeSeries(df);
      var f := SimulateGrowthForecast(ts, growthRate, years);
      && (forall i, j :: 0 <= i < |f| && 0 <= j < |ts| ==> ts[j].key < f[i].year)
      && (forall i, j :: 0 <= i < j < |f| ==> f[i].year < f[j].year)
  {
    var ts := PrepareTimeSeries(df);
    assert df[0] in df && YearOf(df[0]) in Keys(ts);
    ForecastAfterSeries(ts, growthRate, years);
  }

  /** On any series with strictly ascending years, the forecast years come
      after every year of the series and strictly increase. */
  lemma ForecastAfterSeries(ts: Series, growthRate: real, years: int)
    requires |ts| > 0 && StrictlySorted(Keys(ts), IntLess)
    ensures var f := SimulateGrowthForecast(ts, growthRate, years);
      && (forall i, j :: 0 <= i < |f| && 0 <= j < |ts| ==> ts[j].key < f[i].year)
      && (forall i, j :: 0 <= i < j < |f| ==> f[i].year < f[j].year)
  {
    LastYearIsLatest(ts);
  }

  /** The last entry of a series with strictly ascending years holds the
      latest year. */
  lemma LastYearIsLatest(ts: Series)
    requires |ts| > 0 && StrictlySorted(Keys(ts), IntLess)
    ensures forall j :: 0 <= j < |ts| ==> ts[j].key <= ts[|ts| - 1].key
  {
    forall j | 0 <= j < |ts| - 1
      ensures ts[j].key < ts[|ts| - 1].key
    {
      assert IntLess(Keys(ts)[j], Keys(ts)[|ts| - 1]);
    }
  }
}

=== FILE: grouping.dfy ===
/** A one-pass group-by sum with the same result as pandas'
    `groupby(key)[col].sum()`: one entry per distinct key, in ascending key
    order, each carrying the total of the values of its group. The one-pass
    construction is this model's own. `GroupSum` is proved equal,
    group by group, to the reference definition `SumBy` (filter, then add). */
module Grouping {
  import opened Seqs
  import opened Order

  /** One entry of a group-by result: a group key and its total. */
  datatype Entry<K> = Entry(key: K, total: int)

  function EntryKey<K>(e: Entry<K>): K {
    e.key
  }

  function EntryTotal<K>(e: Entry<K>): int {
    e.total
  }

  /** The index of a group-by result. */
  function Keys<K>(es: seq<Entry<K>>): (r: seq<K>)
    ensures |r| == |es| && forall j :: 0 <= j < |es| ==> r[j] == es[j].key
  {
    MapSeq(es, EntryKey)
  }

  /** The total stored for key `k`, 0 when the key is absent. This is also
      how the pivot fills its grid: an absent key reads as 0. */
  function TotalOf<K(==)>(es: seq<Entry<K>>, k: K): int {
    if |es| == 0 then 0
    else if es[0].key == k then es[0].total
    else TotalOf(es[1..], k)
  }

  lemma {:induction false} TotalOfAbsent<K>(es: seq<Entry<K>>, k: K)
    requires k !in Keys(es)
    ensures TotalOf(es, k) == 0
  {
    if |es| > 0 {
      assert Keys(es)[1..] == Keys(es[1..]);
      TotalOfAbsent(es[1..], k);
    }
  }

  /** In an index without duplicates the total of each entry is read back. */
  lemma {:induction false} TotalOfAt<K>(es: seq<Entry<K>>, j: nat)
    requires NoDup(Keys(es)) && j < |es|
    ensures TotalOf(es, es[j].key) == es[j].total
  {
    if j > 0 {
      assert Keys(es)[0] != Keys(es)[j];
      assert Keys(es)[1..] == Keys(es[1..]);
      TotalOfAt(es[1..], j - 1);
    }
  }

  /** A key below the first key of a sorted index is below all of them. */
  lemma BelowAll<K(!new)>(ks: seq<K>, k: K, lt: (K, K) -> bool)
    requires StrictTotalOrder(lt) && StrictlySorted(ks, lt)
    requires |ks| > 0 && lt(k, ks[0])
    ensures k !in ks
  {
    forall j | 0 <= j < |ks|
      ensures ks[j] != k
    {
      if j > 0 {
        assert lt(ks[0], ks[j]);
      }
    }
  }

  /** One row folded into a group-by result: `v` added to the entry of `k`,
      which is created, at its sorted place, when absent. */
  function AddTo<K(==, !new)>(es: seq<Entry<K>>, k: K, v: int, lt: (K, K) -> bool): (r: seq<Entry<K>>)
    requires StrictTotalOrder(lt) && StrictlySorted(Keys(es), lt)
    ensures Keys(r) == Insert(Keys(es), k, lt)
    ensures forall x :: TotalOf(r, x) == TotalOf(es, x) + (if x == k then v else 0)
  {
    if |es| == 0 then
      [Entry(k, v)]
    else if es[0].key == k then
      assert Keys(es) == [k] + Keys(es[1..]);
      [Entry(k, es[0].total + v)] + es[1..]
    else if lt(k, es[0].key) then
      BelowAll(Keys(es), k, lt);
      TotalOfAbsent(es, k);
      assert Keys([Entry(k, v)] + es) == [k] + Keys(es);
      [Entry(k, v)] + es
    else
      assert Keys(es)[1..] == Keys(es[1..]);
      var rest := AddTo(es[1..], k, v, lt);
      assert Keys([es[0]] + rest) == [es[0].key] + Keys(rest);
      [es[0]] + rest
  }

  /** The group-by sum of `val` by `key` over `s`: the distinct keys in ascending
      order, each with the sum of `val` over its group. Built row by row,
      left to right, as one pass over the data would. */
  function GroupSum<T, K(==, !new)>(s: seq<T>, key: T -> K, val: T -> int, lt: (K, K) -> bool): (es: seq<Entry<K>>)
    requires StrictTotalOrder(lt)
    ensures IsKeyIndex(s, key, Keys(es), lt)
    ensures forall k :: TotalOf(es, k) == SumBy(s, key, k, val)
    ensures forall j :: 0 <= j < |es| ==> es[j].total == SumBy(s, key, es[j].key, val)
    decreases |s|
  {
    if |s| == 0 then []
    else
      var init := s[..|s| - 1];
      var x := s[|s| - 1];
      assert s == init + [x];
      var acc := GroupSum(init, key, val, lt);
      var r := AddTo(acc, key(x), val(x), lt);
      forall k
        ensures TotalOf(r, k) == SumBy(s, key, k, val)
      {
        SumBySnoc(init, x, key, k, val);
      }
      assert forall y :: y in s ==> y in init || y == x;
      forall k | k in Keys(r)
        ensures Filter(s, KeyIs(key, k)) != []
      {
        FilterAppend(init, [x], KeyIs(key, k));
      }
      SortedNoDup(Keys(r), lt);
      forall j | 0 <= j < |r|
        ensures r[j].total == SumBy(s, key, r[j].key, val)
      {
        TotalOfAt(r, j);
      }
      r
  }

  /** The entries of a group-by result add up to the sum over the whole
      sequence: every element lands in exactly one group. */
  lemma GroupSumPreservesTotal<T, K(!new)>(s: seq<T>, key: T -> K, val: T -> int, lt: (K, K) -> bool)
    requires StrictTotalOrder(lt)
    ensures SumOf(GroupSum(s, key, val, lt), EntryTotal) == SumOf(s, val)
  {
    var es := GroupSum(s, key, val, lt);
    SortedNoDup(Keys(es), lt);
    CoveringEntriesTotal(s, key, val, es);
  }

  /** Entries with distinct keys covering every element, each holding its
      group's sum, add up to the sum over the whole sequence. */
  lemma CoveringEntriesTotal<T, K>(s: seq<T>, key: T -> K, val: T -> int, es: seq<Entry<K>>)
    requires NoDup(Keys(es))
    requires forall x :: x in s ==> key(x) in Keys(es)
    requires forall j :: 0 <= j < |es| ==> es[j].total == SumBy(s, key, es[j].key, val)
    ensures SumOf(es, EntryTotal) == SumOf(s, val)
  {
    EntriesAreGroupSums(s, key, val, es);
    SumByKeysPartition(s, key, Keys(es), val);
  }

  /** Adding up entries that each hold their group's sum is adding up the
      group sums of their keys. */
  lemma {:induction false} EntriesAreGroupSums<T, K>(s: seq<T>, key: T -> K, val: T -> int, es: seq<Entry<K>>)
    requires forall j :: 0 <= j < |es| ==> es[j].total == SumBy(s, key, es[j].key, val)
    ensures SumOf(es, EntryTotal) == SumByKeys(s, key, Keys(es), val)
  {
    if |es| > 0 {
      assert Keys(es)[1..] == Keys(es[1..]);
      EntriesAreGroupSums(s, key, val, es[1..]);
    }
  }

  /** The index of a group-by result is the sorted list of distinct keys
      present in the data. */
  lemma GroupSumKeys<T, K(!new)>(s: seq<T>, key: T -> K, val: T -> int, lt: (K, K) -> bool)
    requires StrictTotalOrder(lt)
    ensures Keys(GroupSum(s, key, val, lt)) == SortedKeys(s, key, lt)
  {
    var a := Keys(GroupSum(s, key, val, lt));
    var b := SortedKeys(s, key, lt);
    forall k
      ensures k in a <==> k in b
    {
      if k in a {
        var x := FilterWitness(s, KeyIs(key, k));
      }
      if k in b {
        var x := FilterWitness(s, KeyIs(key, k));
      }
    }
    SortedUnique(a, b, lt);
  }

  /** Two strictly sorted sequences with the same elements are equal. */
  lemma {:induction false} SortedUnique<K(!new)>(a: seq<K>, b: seq<K>, lt: (K, K) -> bool)
    requires StrictTotalOrder(lt) && StrictlySorted(a, lt) && StrictlySorted(b, lt)
    requires forall k :: k in a <==> k in b
    ensures a == b
  {
    assert |a| > 0 ==> a[0] in b;
    assert |b| > 0 ==> b[0] in a;
    if |a| > 0 && |b| > 0 {
      SameHead(a, b, lt);
      forall k
        ensures k in a[1..] <==> k in b[1..]
      {
        if k in a[1..] {
          SameTail(a, b, lt, k);
        }
        if k in b[1..] {
          SameTail(b, a, lt, k);
        }
      }
      SortedUnique(a[1..], b[1..], lt);
      assert a == [a[0]] + a[1..] && b == [b[0]] + b[1..];
    }
  }

  lemma SameHead<K(!new)>(a: seq<K>, b: seq<K>, lt: (K, K) -> bool)
    requires StrictTotalOrder(lt) && StrictlySorted(a, lt) && StrictlySorted(b, lt)
    requires forall x :: x in a <==> x in b
    requires |a| > 0 && |b| > 0
    ensures a[0] == b[0]
  {
    assert b[0] in a && a[0] in b;
    var i :| 0 <= i < |a| && a[i] == b[0];
    var j :| 0 <= j < |b| && b[j] == a[0];
  }

  lemma SameTail<K(!new)>(a: seq<K>, b: seq<K>, lt: (K, K) -> bool, k: K)
    requires StrictTotalOrder(lt) && StrictlySorted(a, lt)
    requires forall x :: x in a <==> x in b
    requires |a| > 0 && |b| > 0 && a[0] == b[0] && k in a[1..]
    ensures k in b[1..]
  {
    var i :| 0 <= i < |a[1..]| && a[1..][i] == k;
    assert lt(a[0], a[i + 1]);
    assert k in b;
    var j :| 0 <= j < |b| && b[j] == k;
    assert j != 0;
    assert b[1..][j - 1] == k;
  }
}

=== FILE: numbers.dfy ===
/** Exact real arithmetic for the few places the analysis divides: a mean
    is a total divided by a count. */
module Numbers {
  /** `x` taken `n` times. */
  function Scaled(x: real, n: nat): real {
    x * (n as real)
  }

  /** The mean of `count` values adding up to `total`. */
  function Mean(total: int, count: nat): (m: real)
    requires count > 0
    ensures Scaled(m, count) == total as real
  {
    (total as real) / (count as real)
  }
}

=== FILE: order.dfy ===
/** Orders on group keys. pandas sorts group keys: integers numerically and
    strings by Python's string comparison, which compares code points
    lexicographically. `SortedKeys` is the sorted, duplicate-free list of the
    keys present in a sequence -- the index of a `groupby` result. */
module Order {
  import opened Seqs

  ghost predicate StrictTotalOrder<T(!new)>(lt: (T, T) -> bool) {
    && (forall x :: !lt(x, x))
    && (forall x, y, z :: lt(x, y) && lt(y, z) ==> lt(x, z))
    && (forall x, y :: x != y ==> lt(x, y) || lt(y, x))
  }

  ghost predicate StrictlySorted<T>(xs: seq<T>, lt: (T, T) -> bool) {
    forall i, j :: 0 <= i < j < |xs| ==> lt(xs[i], xs[j])
  }

  /** `ks` is the index of a group-by over `s`: the distinct keys of the
      elements of `s`, each once, in ascending order -- every element's key
      is listed, and every listed key has a non-empty group. */
  ghost predicate IsKeyIndex<T, K>(s: seq<T>, key: T -> K, ks: seq<K>, lt: (K, K) -> bool) {
    && StrictlySorted(ks, lt)
    && (forall x :: x in s ==> key(x) in ks)
    && (forall k :: k in ks ==> Filter(s, KeyIs(key, k)) != [])
  }

  predicate IntLess(a: int, b: int) {
    a < b
  }

  /** Python's `<` on `str`: lexicographic by code point, a proper prefix
      coming first. */
  predicate LexLess(a: string, b: string) {
    if |a| == 0 then |b| > 0
    else if |b| == 0 then false
    else if a[0] != b[0] then a[0] < b[0]
    else LexLess(a[1..], b[1..])
  }

  lemma IntLessIsStrictTotal()
    ensures StrictTotalOrder(IntLess)
  {
  }

  lemma {:induction false} LexIrreflexive(a: string)
    ensures !LexLess(a, a)
  {
    if |a| > 0 {
      LexIrreflexive(a[1..]);
    }
  }

  lemma {:induction false} LexTransitive(a: string, b: string, c: string)
    requires LexLess(a, b) && LexLess(b, c)
    ensures LexLess(a, c)
  {
    if |a| > 0 && a[0] == b[0] && b[0] == c[0] {
      LexTransitive(a[1..], b[1..], c[1..]);
    }
  }

  lemma {:induction false} LexConnected(a: string, b: string)
    requires a != b
    ensures LexLess(a, b) || LexLess(b, a)
  {
    if |a| > 0 && |b| > 0 && a[0] == b[0] {
      assert a == [a[0]] + a[1..] && b == [b[0]] + b[1..];
      LexConnected(a[1..], b[1..]);
    }
  }

  /** Python's string comparison is a strict total order. */
  lemma LexLessIsStrictTotal()
    ensures StrictTotalOrder(LexLess)
  {
    forall a: string ensures !LexLess(a, a) {
      LexIrreflexive(a);
    }
    forall a: string, b: string, c: string | LexLess(a, b) && LexLess(b, c)
      ensures LexLess(a, c)
    {
      LexTransitive(a, b, c);
    }
    forall a: string, b: string | a != b
      ensures LexLess(a, b) || LexLess(b, a)
    {
      LexConnected(a, b);
    }
  }

  /** A strictly sorted sequence holds no element twice. */
  lemma SortedNoDup<T(!new)>(xs: seq<T>, lt: (T, T) -> bool)
    requires StrictTotalOrder(lt) && StrictlySorted(xs, lt)
    ensures NoDup(xs)
  {
    forall i, j | 0 <= i < j < |xs|
      ensures xs[i] != xs[j]
    {
      assert lt(xs[i], xs[j]);
    }
  }

  /** `x` added to a strictly sorted sequence, at its place, unless present. */
  function Insert<T(==, !new)>(xs: seq<T>, x: T, lt: (T, T) -> bool): (r: seq<T>)
    requires StrictTotalOrder(lt) && StrictlySorted(xs, lt)
    ensures StrictlySorted(r, lt)
    ensures forall y :: y in r <==> y in xs || y == x
  {
    if |xs| == 0 then [x]
    else if x == xs[0] then xs
    else if lt(x, xs[0]) then [x] + xs
    else
      var rest := Insert(xs[1..], x, lt);
      InsertTailAbove(xs, x, lt, rest);
      [xs[0]] + rest
  }

  lemma InsertTailAbove<T(!new)>(xs: seq<T>, x: T, lt: (T, T) -> bool, rest: seq<T>)
    requires StrictTotalOrder(lt) && StrictlySorted(xs, lt) && StrictlySorted(rest, lt)
    requires |xs| > 0 && x != xs[0] && !lt(x, xs[0])
    requires forall y :: y in rest ==> y in xs[1..] || y == x
    ensures StrictlySorted([xs[0]] + rest, lt)
  {
    forall y | y in rest
      ensures lt(xs[0], y)
    {
      if y != x {
        var k :| 0 <= k < |xs[1..]| && xs[1..][k] == y;
        assert xs[k + 1] == y;
      }
    }
    var r := [xs[0]] + rest;
    forall i, j | 0 <= i < j < |r|
      ensures lt(r[i], r[j])
    {
      if i == 0 {
        assert r[j] == rest[j - 1] && rest[j - 1] in rest;
      } else {
        assert r[i] == rest[i - 1] && r[j] == rest[j - 1];
      }
    }
  }

  /** The distinct keys of the elements of `s`, in ascending order. */
  function SortedKeys<T, K(==, !new)>(s: seq<T>, key: T -> K, lt: (K, K) -> bool): (r: seq<K>)
    requires StrictTotalOrder(lt)
    ensures IsKeyIndex(s, key, r, lt)
  {
    if |s| == 0 then []
    else
      var rest := SortedKeys(s[1..], key, lt);
      var r := Insert(rest, key(s[0]), lt);
      forall k | k in r
        ensures Filter(s, KeyIs(key, k)) != []
      {
        if k != key(s[0]) {
          assert Filter(s, KeyIs(key, k)) == Filter(s[1..], KeyIs(key, k));
        }
      }
      assert forall x :: x in s ==> x == s[0] || x in s[1..];
      r
  }
}

=== FILE: records.dfy ===
/** A row of the cleaned table, as the analysis modules read it: the four
    columns Year, City, Violations and Value. Value is a count; it is missing
    (NaN) only when the cleaning pipeline neither filled nor dropped it. */
module Records {
  import opened Results

  datatype Record = Record(year: int, city: string, violation: string, value: Option<int>)

  function YearOf(r: Record): int {
    r.year
  }

  function CityOf(r: Record): string {
    r.city
  }

  function ViolationOf(r: Record): string {
    r.violation
  }

  function ValueField(r: Record): Option<int> {
    r.value
  }

  /** A row's contribution to a pandas `sum`, which skips NaN: a missing
      Value adds nothing. */
  function ValueOf(r: Record): int {
    r.value.GetOr(0)
  }
}

=== FILE: results.dfy ===
/** Failure-compatible wrappers used throughout the model: an optional value
    (a missing cell, an absent column) and a result that either carries a
    value or the error the Python code would raise. */
module Results {

  datatype Option<+T> = None | Some(value: T) {

    /** The wrapped value, or `default` when there is none. */
    function GetOr(default: T): T {
      match this
      case Some(v) => v
      case None => default
    }
  }

  datatype Result<+T, +E> = Ok(value: T) | Err(error: E) {

    predicate IsFailure() {
      Err?
    }

    function PropagateFailure<U>(): Result<U, E>
      requires Err?
    {
      Err(error)
    }

    function Extract(): T
      requires Ok?
    {
      value
    }
  }
}

=== FILE: seqs.dfy ===
/** Sequence plumbing shared by the table operations: order-preserving
    filtering, mapping, integer sums, and sums grouped by a key. A pandas
    boolean-mask selection is `Filter`; a `groupby(...).sum()` entry is
    `SumBy`. */
module Seqs {

  /** The elements of `s` that satisfy `p`, in their original order. */
  function Filter<T>(s: seq<T>, p: T -> bool): (r: seq<T>)
    ensures |r| <= |s|
    ensures forall x :: x in r ==> x in s && p(x)
  {
    if |s| == 0 then []
    else if p(s[0]) then [s[0]] + Filter(s[1..], p)
    else Filter(s[1..], p)
  }

  /** `f` applied to every element of `s`. */
  function MapSeq<T, U>(s: seq<T>, f: T -> U): (r: seq<U>)
    ensures |r| == |s|
    ensures forall k :: 0 <= k < |s| ==> r[k] == f(s[k])
  {
    if |s| == 0 then [] else [f(s[0])] + MapSeq(s[1..], f)
  }

  /** The test "the key of x equals k", as a filter predicate. */
  function KeyIs<T, K(==)>(key: T -> K, k: K): T -> bool {
    x => key(x) == k
  }

  ghost predicate NoDup<T>(s: seq<T>) {
    forall i, j :: 0 <= i < j < |s| ==> s[i] != s[j]
  }

  ghost predicate StrictlyIncreasing(idx: seq<int>) {
    forall i, j :: 0 <= i < j < |idx| ==> idx[i] < idx[j]
  }

  /** `idx` lists, in increasing order, exactly the positions of `s` whose
      element satisfies `p`, and `r` holds the elements at those positions. */
  ghost predicate SelectedBy<T>(s: seq<T>, p: T -> bool, r: seq<T>, idx: seq<int>) {
    && |idx| == |r|
    && StrictlyIncreasing(idx)
    && (forall k :: 0 <= k < |idx| ==> 0 <= idx[k] < |s| && r[k] == s[idx[k]])
    && (forall i :: 0 <= i < |s| ==> (p(s[i]) <==> i in idx))
  }

  /** `r` is the order-preserving selection of the elements of `s` that
      satisfy `p`: a subsequence that keeps every such element and no other. */
  ghost predicate IsSelection<T>(s: seq<T>, p: T -> bool, r: seq<T>) {
    exists idx :: SelectedBy(s, p, r, idx)
  }

  /** Every position of `idx` moved one place to the right. */
  function Shift(idx: seq<int>): (r: seq<int>)
    ensures |r| == |idx|
    ensures forall k :: 0 <= k < |idx| ==> r[k] == idx[k] + 1
  {
    MapSeq(idx, (i: int) => i + 1)
  }

  /** A selection from `s[1..]`, moved one place right, selects from `s`
      everything except possibly the head. */
  lemma ShiftedSelection<T>(s: seq<T>, p: T -> bool, tail: seq<T>, idx: seq<int>)
    requires |s| > 0 && SelectedBy(s[1..], p, tail, idx)
    ensures StrictlyIncreasing(Shift(idx))
    ensures forall k :: 0 <= k < |idx| ==> 1 <= Shift(idx)[k] < |s| && tail[k] == s[Shift(idx)[k]]
    ensures forall i :: 1 <= i < |s| ==> (p(s[i]) <==> i in Shift(idx))
    ensures 0 !in Shift(idx)
  {
    ShiftedPositions(s, p, tail, idx);
    ShiftedMembers(s, p, tail, idx);
  }

  lemma ShiftedPositions<T>(s: seq<T>, p: T -> bool, tail: seq<T>, idx: seq<int>)
    requires |s| > 0 && SelectedBy(s[1..], p, tail, idx)
    ensures StrictlyIncreasing(Shift(idx))
    ensures forall k :: 0 <= k < |idx| ==> 1 <= Shift(idx)[k] < |s| && tail[k] == s[Shift(idx)[k]]
  {
    var shifted := Shift(idx);
    forall k | 0 <= k < |idx|
      ensures 1 <= shifted[k] < |s| && tail[k] == s[shifted[k]]
    {
      assert tail[k] == s[1..][idx[k]];
    }
  }

  lemma ShiftedMembers<T>(s: seq<T>, p: T -> bool, tail: seq<T>, idx: seq<int>)
    requires |s| > 0 && SelectedBy(s[1..], p, tail, idx)
    ensures forall i :: 1 <= i < |s| ==> (p(s[i]) <==> i in Shift(idx))
    ensures 0 !in Shift(idx)
  {
    var shifted := Shift(idx);
    forall i | 1 <= i < |s|
      ensures p(s[i]) <==> i in shifted
    {
      assert s[i] == s[1..][i - 1];
      assert p(s[i]) <==> i - 1 in idx;
      if i - 1 in idx {
        var k :| 0 <= k < |idx| && idx[k] == i - 1;
        assert shifted[k] == i;
      }
      if i in shifted {
        var k :| 0 <= k < |shifted| && shifted[k] == i;
        assert idx[k] == i - 1;
      }
    }
    forall k | 0 <= k < |shifted|
      ensures shifted[k] != 0
    {
      assert 0 <= idx[k];
    }
  }

  lemma KeepHead<T>(s: seq<T>, p: T -> bool, tail: seq<T>, idx: seq<int>)
    requires |s| > 0 && p(s[0]) && SelectedBy(s[1..], p, tail, idx)
    ensures SelectedBy(s, p, [s[0]] + tail, [0] + Shift(idx))
  {
    ShiftedSelection(s, p, tail, idx);
    KeepHeadPositions(s, tail, Shift(idx));
    KeepHeadMembers(s, p, Shift(idx));
  }

  lemma KeepHeadPositions<T>(s: seq<T>, tail: seq<T>, shifted: seq<int>)
    requires |s| > 0 && |shifted| == |tail| && StrictlyIncreasing(shifted)
    requires forall k :: 0 <= k < |shifted| ==> 1 <= shifted[k] < |s| && tail[k] == s[shifted[k]]
    ensures StrictlyIncreasing([0] + shifted)
    ensures var r := [s[0]] + tail; var idx' := [0] + shifted;
      forall k :: 0 <= k < |idx'| ==> 0 <= idx'[k] < |s| && r[k] == s[idx'[k]]
  {
    var idx' := [0] + shifted;
    forall i, j | 0 <= i < j < |idx'|
      ensures idx'[i] < idx'[j]
    {
      assert idx'[j] == shifted[j - 1];
      if i > 0 {
        assert idx'[i] == shifted[i - 1];
      }
    }
    var r := [s[0]] + tail;
    forall k | 0 <= k < |idx'|
      ensures 0 <= idx'[k] < |s| && r[k] == s[idx'[k]]
    {
      if k > 0 {
        assert idx'[k] == shifted[k - 1] && r[k] == tail[k - 1];
      }
    }
  }

  lemma KeepHeadMembers<T>(s: seq<T>, p: T -> bool, shifted: seq<int>)
    requires |s| > 0 && p(s[0])
    requires forall i :: 1 <= i < |s| ==> (p(s[i]) <==> i in shifted)
    ensures forall i :: 0 <= i < |s| ==> (p(s[i]) <==> i in [0] + shifted)
  {
    forall i | 0 <= i < |s|
      ensures p(s[i]) <==> i in [0] + shifted
    {
      if i > 0 {
        assert i in [0] + shifted <==> i in shifted;
      }
    }
  }

  lemma SkipHead<T>(s: seq<T>, p: T -> bool, tail: seq<T>, idx: seq<int>)
    requires |s| > 0 && !p(s[0]) && SelectedBy(s[1..], p, tail, idx)
    ensures SelectedBy(s, p, tail, Shift(idx))
  {
    ShiftedSelection(s, p, tail, idx);
  }

  /** Filtering `[x] + t` keeps `x` in front exactly when it satisfies the
      predicate, then filters `t`. */
  lemma FilterCons<T>(x: T, t: seq<T>, p: T -> bool)
    ensures Filter([x] + t, p) == if p(x) then [x] + Filter(t, p) else Filter(t, p)
  {
    assert ([x] + t)[0] == x;
    assert ([x] + t)[1..] == t;
  }

  /** Filtering keeps exactly the satisfying elements, in order, unchanged. */
  lemma {:induction false} FilterSelects<T>(s: seq<T>, p: T -> bool)
    ensures IsSelection(s, p, Filter(s, p))
  {
    if |s| == 0 {
      assert SelectedBy(s, p, [], []);
    } else {
      FilterSelects(s[1..], p);
      var tail := Filter(s[1..], p);
      var idx :| SelectedBy(s[1..], p, tail, idx);
      if p(s[0]) {
        KeepHead(s, p, tail, idx);
        assert SelectedBy(s, p, Filter(s, p), [0] + Shift(idx));
      } else {
        SkipHead(s, p, tail, idx);
        assert SelectedBy(s, p, Filter(s, p), Shift(idx));
      }
    }
  }

  /** A filter that every element passes keeps the sequence as it is. */
  lemma {:induction false} FilterKeepsAll<T>(s: seq<T>, p: T -> bool)
    requires forall x :: x in s ==> p(x)
    ensures Filter(s, p) == s
  {
    if |s| > 0 {
      assert s[0] in s;
      assert forall x :: x in s[1..] ==> x in s;
      FilterKeepsAll(s[1..], p);
      assert [s[0]] + s[1..] == s;
    }
  }

  /** A filter that no element passes leaves nothing. */
  lemma {:induction false} FilterNoneSatisfy<T>(s: seq<T>, p: T -> bool)
    requires forall x :: x in s ==> !p(x)
    ensures Filter(s, p) == []
  {
    if |s| > 0 {
      assert s[0] in s;
      assert forall x :: x in s[1..] ==> x in s;
      FilterNoneSatisfy(s[1..], p);
    }
  }

  /** Filtering twice by the same predicate is filtering once. */
  lemma FilterIdempotent<T>(s: seq<T>, p: T -> bool)
    ensures Filter(Filter(s, p), p) == Filter(s, p)
  {
    FilterKeepsAll(Filter(s, p), p);
  }

  /** A non-empty filter result comes from an element that satisfies the
      predicate. */
  lemma FilterWitness<T>(s: seq<T>, p: T -> bool) returns (x: T)
    requires Filter(s, p) != []
    ensures x in s && p(x)
  {
    x := Filter(s, p)[0];
  }

  /** An element that satisfies the predicate survives the filter. */
  lemma {:induction false} FilterKeepsWitness<T>(s: seq<T>, p: T -> bool, x: T)
    requires x in s && p(x)
    ensures x in Filter(s, p)
  {
    if s[0] != x {
      assert x in s[1..];
      FilterKeepsWitness(s[1..], p, x);
    }
  }

  /** The sum of `val` over `s`. */
  function SumOf<T>(s: seq<T>, val: T -> int): int {
    if |s| == 0 then 0 else val(s[0]) + SumOf(s[1..], val)
  }

  /** The sum of `val` over the elements of `s` whose key is `k` -- one entry
      of a group-by sum. */
  function SumBy<T, K(==)>(s: seq<T>, key: T -> K, k: K, val: T -> int): int {
    SumOf(Filter(s, KeyIs(key, k)), val)
  }

  /** The group sums for the keys `ks`, added up. */
  function SumByKeys<T, K(==)>(s: seq<T>, key: T -> K, ks: seq<K>, val: T -> int): int {
    if |ks| == 0 then 0 else SumBy(s, key, ks[0], val) + SumByKeys(s, key, ks[1..], val)
  }

  lemma {:induction false} SumOfAppend<T>(a: seq<T>, b: seq<T>, val: T -> int)
    ensures SumOf(a + b, val) == SumOf(a, val) + SumOf(b, val)
  {
    if |a| == 0 {
      assert a + b == b;
    } else {
      assert (a + b)[1..] == a[1..] + b;
      SumOfAppend(a[1..], b, val);
    }
  }

  /** A group sum over `[x] + t` is the group sum over `t`, plus `x`'s value
      when `x` belongs to the group. */
  lemma SumByCons<T, K>(x: T, t: seq<T>, key: T -> K, k: K, val: T -> int)
    ensures SumBy([x] + t, key, k, val)
         == (if key(x) == k then val(x) else 0) + SumBy(t, key, k, val)
  {
    assert ([x] + t)[0] == x;
    assert ([x] + t)[1..] == t;
  }

  /** A group no element belongs to sums to zero. */
  lemma {:induction false} SumByAbsent<T, K>(s: seq<T>, key: T -> K, k: K, val: T -> int)
    requires forall x :: x in s ==> key(x) != k
    ensures SumBy(s, key, k, val) == 0
  {
    if |s| > 0 {
      assert s[0] in s;
      assert forall x :: x in s[1..] ==> x in s;
      SumByAbsent(s[1..], key, k, val);
    }
  }

  lemma {:induction false} SumByKeysOfEmpty<T, K>(key: T -> K, ks: seq<K>, val: T -> int)
    ensures SumByKeys([], key, ks, val) == 0
  {
    if |ks| > 0 {
      SumByKeysOfEmpty(key, ks[1..], val);
    }
  }

  lemma {:induction false} SumByKeysCons<T, K>(x: T, t: seq<T>, key: T -> K, ks: seq<K>, val: T -> int)
    requires NoDup(ks)
    ensures SumByKeys([x] + t, key, ks, val)
         == SumByKeys(t, key, ks, val) + (if key(x) in ks then val(x) else 0)
  {
    if |ks| > 0 {
      SumByCons(x, t, key, ks[0], val);
      SumByKeysCons(x, t, key, ks[1..], val);
      if key(x) == ks[0] {
        assert key(x) !in ks[1..];
      }
      assert key(x) in ks <==> key(x) == ks[0] || key(x) in ks[1..];
    }
  }

  /** Partition: adding up the group sums over a duplicate-free list of keys
      that covers every element's key gives the sum over the whole sequence. */
  lemma {:induction false} SumByKeysPartition<T, K>(s: seq<T>, key: T -> K, ks: seq<K>, val: T -> int)
    requires NoDup(ks)
    requires forall x :: x in s ==> key(x) in ks
    ensures SumByKeys(s, key, ks, val) == SumOf(s, val)
  {
    if |s| == 0 {
      SumByKeysOfEmpty(key, ks, val);
    } else {
      assert s == [s[0]] + s[1..];
      assert s[0] in s;
      SumByKeysCons(s[0], s[1..], key, ks, val);
      SumByKeysPartition(s[1..], key, ks, val);
    }
  }

  /** Filtering distributes over concatenation. */
  lemma {:induction false} FilterAppend<T>(a: seq<T>, b: seq<T>, p: T -> bool)
    ensures Filter(a + b, p) == Filter(a, p) + Filter(b, p)
  {
    if |a| == 0 {
      assert a + b == b;
    } else {
      assert (a + b)[0] == a[0];
      assert (a + b)[1..] == a[1..] + b;
      FilterAppend(a[1..], b, p);
    }
  }

  /** A group sum over `a + [x]` is the group sum over `a`, plus `x`'s value
      when `x` belongs to the group. */
  lemma SumBySnoc<T, K>(a: seq<T>, x: T, key: T -> K, k: K, val: T -> int)
    ensures SumBy(a + [x], key, k, val)
         == SumBy(a, key, k, val) + (if key(x) == k then val(x) else 0)
  {
    FilterAppend(a, [x], KeyIs(key, k));
    SumOfAppend(Filter(a, KeyIs(key, k)), Filter([x], KeyIs(key, k)), val);
  }

  function Id(n: int): int {
    n
  }

  /** The sum of a sequence of integers. */
  function Sum(xs: seq<int>): int {
    SumOf(xs, Id)
  }

  /** Two sequences of the same length whose values agree position by
      position have the same sum. */
  lemma {:induction false} SumOfPointwise<T, U>(a: seq<T>, f: T -> int, b: seq<U>, g: U -> int)
    requires |a| == |b| && forall i :: 0 <= i < |a| ==> f(a[i]) == g(b[i])
    ensures SumOf(a, f) == SumOf(b, g)
  {
    if |a| > 0 {
      SumOfPointwise(a[1..], f, b[1..], g);
    }
  }
}

=== FILE: stats.dfy ===
/** src/statistical_tests.py: the samples each test is run on and the result
    records built around the library's answers. The statistics and p-values
    themselves come from scipy and pandas, which are outside this model: they
    are the function-valued fields of a `TestLibrary`, applied to exactly the
    samples the source passes them. */
module Stats {
  import opened Results
  import opened Seqs
  import opened Order
  import opened Records
  import opened Numbers

  /** A float result of the library: a number, or NaN (for instance the
      p-value of a test on samples too small to have a variance). */
  datatype Float = Num(x: real) | NaN

  /** A `Value` column: one cell per row, NaN where the count is missing. */
  type Sample = seq<Option<int>>

  /** The library routines the tests call, left uninterpreted:
      `ttest_ind`, `levene` and `f_oneway` return (statistic, p-value), and
      `std` is the pandas sample standard deviation. */
  datatype TestLibrary = TestLibrary(
    ttestInd: (Sample, Sample) -> (Float, Float),
    levene: (Sample, Sample) -> (Float, Float),
    fOneway: seq<Sample> -> (Float, Float),
    std: Sample -> Float)

  /** The significance level of every test in the module. */
  const Alpha: real := 0.05

  /** `p_value < alpha`: a comparison with NaN is false. */
  predicate Significant(p: Float) {
    p.Num? && p.x < Alpha
  }

  /** `p_value > 0.05`, the Levene decision: a comparison with NaN is false. */
  predicate EqualVariances(p: Float) {
    p.Num? && p.x > Alpha
  }

  /** A p-value is significant, shows equal variances, or neither -- never
      both -- and it is neither exactly when it is NaN or equals the level. */
  lemma DecisionsAtTheLevel(p: Float)
    ensures !(Significant(p) && EqualVariances(p))
    ensures Significant(p) || EqualVariances(p) <==> p.Num? && p.x != Alpha
    ensures p == Num(Alpha) ==> !Significant(p) && !EqualVariances(p)
  {
  }

  // ---------------------------------------------------------------------
  // Samples
  // ---------------------------------------------------------------------

  /** A city's sample: the Value cells of the city's rows, in table order. */
  function CitySample(df: seq<Record>, city: string): (r: Sample)
    ensures |r| == |Filter(df, KeyIs(CityOf, city))|
  {
    MapSeq(Filter(df, KeyIs(CityOf, city)), ValueField)
  }

  /** A city's sample is the Value column of its rows, in table order:
      every row of the city contributes its cell, and no other row does. */
  lemma CitySampleSelects(df: seq<Record>, city: string)
    ensures exists g :: IsSelection(df, KeyIs(CityOf, city), g) && CitySample(df, city) == MapSeq(g, ValueField)
  {
    FilterSelects(df, KeyIs(CityOf, city));
  }

  /** A city with no row has an empty sample. */
  lemma UnknownCityEmptySample(df: seq<Record>, city: string)
    requires forall x :: x in df ==> x.city != city
    ensures CitySample(df, city) == []
  {
    FilterNoneSatisfy(df, KeyIs(CityOf, city));
  }

  function One<T>(x: T): int {
    1
  }

  lemma {:induction false} SumOfOnes<T>(s: seq<T>)
    ensures SumOf(s, One) == |s|
  {
    if |s| > 0 {
      SumOfOnes(s[1..]);
    }
  }

  /** The size of a city's sample, as a function of the city. */
  function SampleSize(df: seq<Record>): string -> int {
    c => |CitySample(df, c)|
  }

  lemma {:induction false} SampleSizesAreCounts(df: seq<Record>, cities: seq<string>)
    ensures SumOf(cities, SampleSize(df)) == SumByKeys(df, CityOf, cities, One)
  {
    if |cities| > 0 {
      SumOfOnes(Filter(df, KeyIs(CityOf, cities[0])));
      SampleSizesAreCounts(df, cities[1..]);
    }
  }

  /** The distinct cities of a table, in ascending order. */
  function Cities(df: seq<Record>): (r: seq<string>)
    ensures IsKeyIndex(df, CityOf, r, LexLess)
  {
    LexLessIsStrictTotal();
    SortedKeys(df, CityOf, LexLess)
  }

  /** The samples of the distinct cities of a table together hold one cell
      per row: every row is in the sample of its own city and no other. */
  lemma SampleSizesCoverTable(df: seq<Record>)
    ensures SumOf(Cities(df), SampleSize(df)) == |df|
  {
    LexLessIsStrictTotal();
    var cities := Cities(df);
    SortedNoDup(cities, LexLess);
    SampleSizesAreCounts(df, cities);
    SumByKeysPartition(df, CityOf, cities, One);
    SumOfOnes(df);
  }

  /** The present counts of a sample, in order: what pandas' reductions see
      once NaN is skipped. */
  function Present(s: Sample): (r: seq<int>)
    ensures |r| <= |s|
  {
    if |s| == 0 then []
    else (if s[0].Some? then [s[0].value] else []) + Present(s[1..])
  }

  function CellOrZero(c: Option<int>): int {
    c.GetOr(0)
  }

  /** Skipping NaN and counting it as 0 give the same sum. */
  lemma {:induction false} PresentSum(s: Sample)
    ensures Sum(Present(s)) == SumOf(s, CellOrZero)
  {
    if |s| > 0 {
      PresentSum(s[1..]);
      var head := if s[0].Some? then [s[0].value] else [];
      SumOfAppend(head, Present(s[1..]), Id);
    }
  }

  /** `Series.mean()`: the mean of the present counts; NaN when there are
      none (an empty sample, or one that is all NaN). */
  function SampleMean(s: Sample): (m: Float)
    ensures m.Num? <==> |Present(s)| > 0
    ensures m.Num? ==> Scaled(m.x, |Present(s)|) == SumOf(s, CellOrZero) as real
  {
    var vs := Present(s);
    PresentSum(s);
    if |vs| == 0 then NaN else Num(Mean(Sum(vs), |vs|))
  }

  // ---------------------------------------------------------------------
  // perform_ttest
  // ---------------------------------------------------------------------

  datatype TTestResult = TTestResult(
    city1: string, city2: string,
    mean1: Float, mean2: Float,
    std1: Float, std2: Float,
    n1: nat, n2: nat,
    tStatistic: Float, pValue: Float,
    alpha: real, isSignificant: bool,
    degreesOfFreedom: int)

  /** `perform_ttest(df, city1, city2)`. */
  function PerformTTest(lib: TestLibrary, df: seq<Record>, city1: string, city2: string): (r: TTestResult)
    ensures r.city1 == city1 && r.city2 == city2
    ensures r.n1 == |Filter(df, KeyIs(CityOf, city1))| && r.n2 == |Filter(df, KeyIs(CityOf, city2))|
    ensures r.degreesOfFreedom == r.n1 + r.n2 - 2
    ensures (r.tStatistic, r.pValue) == lib.ttestInd(CitySample(df, city1), CitySample(df, city2))
    ensures r.mean1 == SampleMean(CitySample(df, city1)) && r.mean2 == SampleMean(CitySample(df, city2))
    ensures r.std1 == lib.std(CitySample(df, city1)) && r.std2 == lib.std(CitySample(df, city2))
    ensures r.alpha == Alpha
    ensures r.isSignificant <==> r.pValue.Num? && r.pValue.x < 0.05
  {
    var s1 := CitySample(df, city1);
    var s2 := CitySample(df, city2);
    var (t, p) := lib.ttestInd(s1, s2);
    TTestResult(
      city1, city2,
      SampleMean(s1), SampleMean(s2),
      lib.std(s1), lib.std(s2),
      |s1|, |s2|,
      t, p,
      Alpha, Significant(p),
      |s1| + |s2| - 2)
  }

  /** Swapping the two cities swaps the names, the descriptive statistics and
      the sample sizes, and keeps the degrees of freedom. */
  lemma TTestSwap(lib: TestLibrary, df: seq<Record>, a: string, b: string)
    ensures var r := PerformTTest(lib, df, a, b);
      var s := PerformTTest(lib, df, b, a);
      && s.city1 == r.city2 && s.city2 == r.city1
      && s.mean1 == r.mean2 && s.mean2 == r.mean1
      && s.std1 == r.std2 && s.std2 == r.std1
      && s.n1 == r.n2 && s.n2 == r.n1
      && s.degreesOfFreedom == r.degreesOfFreedom
  {
  }

  /** The sample sizes reported are the numbers of rows of each city, so the
      degrees of freedom of two cities present in the table are at least 0,
      and a city absent from the table reports an empty sample. */
  lemma TTestSizes(lib: TestLibrary, df: seq<Record>, city1: string, city2: string)
    ensures var r := PerformTTest(lib, df, city1, city2);
      && (r.n1 == 0 <==> forall x :: x in df ==> x.city != city1)
      && (r.n2 == 0 <==> forall x :: x in df ==> x.city != city2)
      && (r.n1 > 0 && r.n2 > 0 ==> r.degreesOfFreedom >= 0)
  {
    SampleEmptyIffAbsent(df, city1);
    SampleEmptyIffAbsent(df, city2);
  }

  lemma SampleEmptyIffAbsent(df: seq<Record>, city: string)
    ensures Filter(df, KeyIs(CityOf, city)) == [] <==> forall x :: x in df ==> x.city != city
  {
    var p := KeyIs(CityOf, city);
    if Filter(df, p) == [] {
      forall x | x in df
        ensures x.city != city
      {
        if x.city == city {
          FilterKeepsWitness(df, p, x);
        }
      }
    } else {
      var x := FilterWitness(df, p);
    }
  }

  // ---------------------------------------------------------------------
  // perform_anova
  // ---------------------------------------------------------------------

  datatype AnovaResult = AnovaResult(cities: seq<string>, fStatistic: Float, pValue: Float, alpha: real, isSignificant: bool)

  /** The samples of a list of cities, one per city, in the list's order. */
  function CitySamples(df: seq<Record>, cities: seq<string>): (r: seq<Sample>)
    ensures |r| == |cities| && forall j :: 0 <= j < |cities| ==> r[j] == CitySample(df, cities[j])
  {
    MapSeq(cities, c => CitySample(df, c))
  }

  /** `perform_anova(df, cities)`. */
  function PerformAnova(lib: TestLibrary, df: seq<Record>, cities: seq<string>): (r: AnovaResult)
    ensures r.cities == cities
    ensures (r.fStatistic, r.pValue) == lib.fOneway(CitySamples(df, cities))
    ensures r.alpha == Alpha
    ensures r.isSignificant <==> r.pValue.Num? && r.pValue.x < 0.05
  {
    var (f, p) := lib.fOneway(CitySamples(df, cities));
    AnovaResult(cities, f, p, Alpha, Significant(p))
  }

  // ---------------------------------------------------------------------
  // levene_test
  // ---------------------------------------------------------------------

  datatype LeveneResult = LeveneResult(statistic: Float, pValue: Float, equalVariances: bool)

  /** `levene_test(df, city1, city2)`. */
  function LeveneTest(lib: TestLibrary, df: seq<Record>, city1: string, city2: string): (r: LeveneResult)
    ensures (r.statistic, r.pValue) == lib.levene(CitySample(df, city1), CitySample(df, city2))
    ensures r.equalVariances <==> r.pValue.Num? && r.pValue.x > 0.05
  {
    var (stat, p) := lib.levene(CitySample(df, city1), CitySample(df, city2));
    LeveneResult(stat, p, EqualVariances(p))
  }
}
